=== FILE: README.md ===
# Restaurant licensing requirement matcher — Dafny model

This project models the core of a licensing assistant for Israeli restaurants.
A business owner fills in a questionnaire with size in m², seating capacity and
special features (gas, meat, delivery, alcohol). The questionnaire becomes a
validated business profile. The matching engine selects the regulatory
requirements whose size and capacity ranges contain the profile and gives each
one a priority tier. The business-rule processor reconciles chapter 5 (small
businesses) against chapter 6 (large businesses), applies the feature rules,
deduplicates and orders the result, and logs conflicts. The formatter turns the
result into records, category groups, statistics and a prompt context.

On the agent side, the model covers:
- the conversational business profiler: collecting fields, choosing the next
  question, detecting the business type, and building the profile dictionary;
- the regulation-chunk condition evaluator and its condition renderer.

Modules, one per source file plus shared helpers:

| module | file | models |
|---|---|---|
| `Wrappers`, `Seqs`, `Ordering` | wrappers.dfy, seqs.dfy, ordering.dfy | `Option`/`Result`, filtering, first-occurrence dedup, insertion-ordered counters (a Python dict of counts), a stable sort on `(major, minor, text)` keys |
| `Profile` | profile.dfy | backend/models/business_profile.py |
| `Engine` | engine.dfy | backend/matching/engine.py |
| `Rules` | rules.dfy | backend/matching/rules.py |
| `Formatter` | formatter.dfy | backend/matching/formatter.py, structural parts |
| `Conditions` | conditions.dfy | agent/data_processor.py |
| `Profiler` | profiler.dfy | agent/business_profiler.py |
| `Pipeline` | pipeline.dfy | the request flows of backend/api/matching.py and the small-business test case |

Modelling choices:
- **Rule session.** The rule processor's mutable conflict log is a `RuleSession`
  value that is threaded through the calls.
- **Profiler state.** The profiler's mutable `BusinessInfo` is a record that
  `Update` returns.
- **Feature gate.** The feature-gate behaviour is a parameter
  (`FeatureGatePolicy`):
  - `SourcePolicy` (`ReasonOnly`) is the code as written;
  - `Enforced` is the behaviour the tests expect (see Findings).
- **Category defaults.** A requirement's category is optional. The code
  defaults a missing category to `general` when matching and to `unknown` in
  the catalog statistics, and the model keeps both defaults.
- **Boundary handling logs no conflict.** For a business at exactly 150 m²
  or exactly 50 people, the boundary stage (backend/matching/rules.py:84-104)
  removes every chapter 6 match that conflicts with a chapter 5 match before
  reconciliation runs. Reconciliation then finds nothing to drop, so no
  conflict is ever logged for such a business: see
  `Rules.BoundaryThenReconcileIsQuiet`.

## Model

| member | source | states |
|---|---|---|
| Profile.ParseFeature | backend/models/business_profile.py:13-19 | a parsed feature name is the name of the feature it yields |
| Profile.FeatureNameRoundTrip | backend/models/business_profile.py:13-19 | the four feature values and their wire names are in bijection |
| Profile.SameSizeAsSetIffDistinct | backend/models/business_profile.py:65-70 | the uniqueness test `len(v) == len(set(v))` holds exactly when the feature list has no repeated element |
| Profile.NewProfile | backend/models/business_profile.py:21-83 | a profile is accepted iff 0 < size ≤ 5000, 0 < capacity ≤ 5000 and features are unique; a rejection names at least one error, names the duplicate-feature error iff features repeat, and names the "unusually large" error iff 5000 < size ≤ 10000 |
| Profile.CheckboxFeatures | backend/models/business_profile.py:105-116 | a feature is listed iff its box is ticked, and no feature is listed twice |
| Profile.CheckboxFeaturesInOrder | backend/models/business_profile.py:107-116 | the feature list is the ticked boxes in the order gas, meat, delivery, alcohol |
| Profile.ToBusinessProfile | backend/models/business_profile.py:105-124 | conversion succeeds iff size and seating pass the profile's field limits; on success size, capacity, name and notes are carried over and the business type is "restaurant" |
| Profile.BucketsAreMonotoneIntervals | backend/models/business_profile.py:144-158 | size and capacity categories are monotone in the value, with Medium exactly (100, 300] and (50, 200] |
| Profile.SummaryOf | backend/models/business_profile.py:141-160 | Small iff size ≤ 100, Large iff size > 300, Low iff capacity ≤ 50, High iff capacity > 200; the feature count is the number of features |
| Engine.ParseCategory | backend/matching/engine.py:25-35 | a category string is read back to a category with the same name |
| Engine.CategoryNameRoundTrip | backend/matching/engine.py:25-35 | category names and well-formed categories are in bijection |
| Engine.CheckRange | backend/matching/engine.py:164-200 | the gate passes iff min ≤ value ≤ max, with missing bounds 0 and 9999; a reason is given iff it passes and a bound is not the default; the reason is "between", "above" or "up to" according to which bounds are set |
| Engine.RangeGateBoundaries | backend/matching/engine.py:164-200 | both bounds are inclusive, one past each bound fails, and an unbounded range admits every valid profile without a reason |
| Engine.MatchedFeatures | backend/matching/engine.py:202-223 | the matched features are exactly the profile's features named by the requirement |
| Engine.CheckFeatures | backend/matching/engine.py:202-223 | the feature check passes iff the requirement names no feature or the profile has one it names; it gives a reason iff some feature matches, and the reason lists exactly the matching features |
| Engine.CalculatePriority | backend/matching/engine.py:225-253 | the priority is always one of the tiers 1, 2, 3 |
| Engine.PriorityByCategory | backend/matching/engine.py:225-253 | fire equipment, electrical and certifications are 1; gas is 1 iff the profile uses gas and 2 otherwise; signage is 2; everything else is 3 |
| Engine.PriorityIgnoresSizeAndCapacity | backend/matching/engine.py:240-253 | the large-business branch never changes the priority: it depends only on the category and on gas usage |
| Engine.EvaluateRequirement | backend/matching/engine.py:108-162 | a match is produced iff the size and capacity gates pass (and, under the enforced policy, the feature gate); it carries the requirement's fields, the initial priority, and the size, capacity and feature reasons of the three gates in that order, with a feature reason iff some feature matched |
| Engine.CandidatesMembers | backend/matching/engine.py:95-100 | the candidate matches are exactly the evaluations of the catalog entries that produce a match |
| Engine.MatchRequirements | backend/matching/engine.py:77-106 | the result is the stable sort of the candidates (catalog order) by (priority, chapter, section), so a permutation of them and sorted; it is empty for an empty catalog, and every requirement passing the gates is matched |
| Engine.MatchPrioritiesAreTiers | backend/matching/engine.py:77-106 | every reported match has priority 1, 2 or 3 |
| Engine.FeatureGateNotEnforced | backend/matching/engine.py:142-148 | as written, a requirement is matched even though its feature check fails |
| Engine.EnforcedMatchesPassAllGates | backend/matching/engine.py:202-223 | with the gate enforced, every match passes the size, capacity and feature checks |
| Engine.ApplicableThresholds | backend/matching/engine.py:255-300 | an area or capacity threshold is listed iff its trigger is "maximum" (the default) and the profile's value is at most the threshold, or its trigger is "minimum" and the value is at least the threshold; a combined threshold is listed iff both size and capacity reach it; missing values read as 0; each list keeps the document order of the thresholds it lists, repeats included |
| Engine.ApplicableThresholdsConcat | backend/matching/engine.py:264-298 | the thresholds triggered in a two-part document are those of the first part followed by those of the second |
| Engine.CatalogStatistics | backend/matching/engine.py:302-327 | no catalog, or an empty document, gives no statistics; otherwise the totals, the counts by category (missing category counted as "unknown") and by chapter, and the threshold counts are exact |
| Rules.ConflictIsSymmetricAcrossChapters | backend/matching/rules.py:301-313 | two matches conflict iff they come from different chapters and either share a fire-equipment, electrical or signage category or have the same title; the relation is symmetric and never relates matches of one chapter |
| Rules.FirstConflicting | backend/matching/rules.py:293-299 | finds a match of the other list that conflicts with the given one, and finds none iff there is none |
| Rules.ChapterMatches | backend/matching/rules.py:91-92 | picks exactly the matches of one chapter |
| Rules.Survivors | backend/matching/rules.py:100-102 | keeps exactly the secondary matches that conflict with no primary match |
| Rules.HandleBoundary | backend/matching/rules.py:76-106 | outside 150 m²/50 people, or with only one chapter present, the matches are unchanged; otherwise the result is drawn from the input: the chapter-5 matches first, then the chapter-6 matches free of conflict with them, every other chapter dropped (stated in full by `Rules.BoundaryContents`) |
| Rules.BoundaryContents | backend/matching/rules.py:84-106 | at the boundary, every chapter 5 match is kept and a chapter 6 match is kept iff it conflicts with no chapter 5 match, and all chapter 5 matches come first |
| Rules.PrimaryChapter | backend/matching/rules.py:124-134 | chapter 5 is primary iff size ≤ 150 and capacity ≤ 50; otherwise chapter 6 is primary |
| Rules.DropLog | backend/matching/rules.py:140-153 | logs one conflict for each secondary match that is dropped, so log and survivors together account for every secondary match; each conflict prefers the primary chapter and names the primary requirement as preferred |
| Rules.DropLogMembers | backend/matching/rules.py:140-153 | the log holds exactly the conflicts of the secondary matches that conflict with some primary match, each naming the first such primary |
| Rules.ResolveAgainst | backend/matching/rules.py:136-156 | keeps every primary match plus the conflict-free secondary ones; kept and dropped together are all the secondary matches |
| Rules.Reconcile | backend/matching/rules.py:108-163 | with only one chapter present nothing changes and nothing is logged; otherwise the result comes from the input and every logged conflict prefers the primary chapter |
| Rules.ReconcileContents | backend/matching/rules.py:108-163 | with both chapters present, a match survives iff it is primary or a conflict-free secondary, and one conflict is logged per dropped secondary |
| Rules.BoundaryThenReconcileIsQuiet | backend/matching/rules.py:58-62 | after boundary handling fires, reconciliation drops nothing and logs no conflict |
| Rules.ElevateGas | backend/matching/rules.py:191-206 | gas requirements become priority 1; nothing else changes |
| Rules.NoteDelivery | backend/matching/rules.py:208-219 | signage requirements gain the delivery reason; nothing else changes |
| Rules.Escalate | backend/matching/rules.py:241-244 | a priority above 1 drops by one and gains the complex-business reason; priority 1 is left alone |
| Rules.MultiFeatureRule | backend/matching/rules.py:186-187 | the rule runs only with more than one feature and acts only with 3 or more: with fewer than 3 features the matches are unchanged; otherwise each is escalated |
| Rules.ApplyFeatureRules | backend/matching/rules.py:165-189 | keeps every match's identity and order, never lowers a tier's urgency, makes gas priority 1 for gas users, adds the delivery reason to signage for delivery businesses, and with three or more features moves every other non-critical match up one level with the complexity reason; reasons are only appended (delivery, then complexity) and every other priority is unchanged |
| Rules.Prioritize | backend/matching/rules.py:248-266 | the result is the stable sort, by (priority, chapter, section), of the first match of each id: ids are unique, the id set is unchanged, and matches with equal keys keep their order |
| Rules.Process | backend/matching/rules.py:41-74 | extends the conflict log without rewriting it, logs nothing at the boundary, and returns sorted, id-unique matches derived from the input with gas at priority 1 for gas users; every id that survives boundary handling and reconciliation is reported |
| Rules.Reset | backend/matching/rules.py:315-321 | after a reset the conflict report is empty |
| Rules.ResetIsolatesRequests | backend/matching/rules.py:315-321 | after a reset, processing logs exactly this request's conflicts and does not depend on the earlier log |
| Ordering.SortBy | backend/matching/engine.py:103 | the result is sorted by the key and is a permutation of the input |
| Ordering.SortBySortedIsIdentity | backend/matching/rules.py:264 | sorting an already sorted list leaves it unchanged |
| Ordering.SortByStable | backend/matching/rules.py:264 | the sort keeps the input order of equal keys, like Python's `list.sort` |
| Seqs.DedupBy | backend/matching/rules.py:252-259 | every kept element is the first one of its key, no key is kept twice, and every key of the input is kept |
| Seqs.MaxIndex | backend/matching/formatter.py:281 | picks the first entry with the largest count, like Python's `max` over a dict |
| Formatter.PriorityText | backend/matching/formatter.py:294-301 | the label is "unknown" iff the priority is not 1, 2 or 3 |
| Formatter.PriorityTextRoundTrip | backend/matching/formatter.py:294-301 | the tier can be read back from the label exactly for tiers 1 to 3 |
| Formatter.RecordRoundTrip | backend/matching/formatter.py:134-147 | the record of a match holds the whole match |
| Formatter.CriticalMatches | backend/matching/formatter.py:99-103 | the priority requirements are exactly the priority-1 matches |
| Formatter.InCategoryCount | backend/matching/formatter.py:151-157 | the size of a category's match list is that category's multiplicity among the matches |
| Formatter.MinPriority | backend/matching/formatter.py:168-169 | a group's priority is the least priority of its matches |
| Formatter.FirstSeenCategories | backend/matching/formatter.py:151-161 | the group categories are distinct, each is used by some match, and every match's category is among them |
| Formatter.GroupByCategory | backend/matching/formatter.py:149-188 | the groups are sorted by (priority, category name) and are a permutation of the first-seen groups |
| Formatter.GroupsPartitionMatches | backend/matching/formatter.py:149-188 | one group per category, each holding exactly its category's matches with the matching count and least priority, and every match in some group |
| Formatter.TierCountsCoverAll | backend/matching/formatter.py:255-266 | with tiers 1 to 3, the three tier counts add up to the number of matches |
| Formatter.GenerateStatistics | backend/matching/formatter.py:248-282 | statistics exist iff there is at least one match, and then the total is the number of matches |
| Formatter.StatisticsCountsAreExact | backend/matching/formatter.py:254-274 | each category and chapter count is the number of matches with that category or chapter, no key is counted twice, and each counter adds up to the number of matches |
| Formatter.StatisticsTierCounts | backend/matching/formatter.py:255-279 | the critical, important and recommended counts are the numbers of priority-1, -2 and -3 matches, and they add up to the total when every priority is a tier |
| Formatter.MostCommonIsFirstMaximal | backend/matching/formatter.py:281 | the most common category occurs among the matches, no category is counted more often, and every counter before it is strictly smaller |
| Formatter.GroupCountsAgreeWithStatistics | backend/matching/formatter.py:149-188 | every group's count equals its category's count in the statistics |
| Formatter.SummaryItems | backend/matching/formatter.py:210-219 | one summary item per priority ≤ 2 match, in order, with that match's section and title, and with a first reason iff the match has reasons |
| Formatter.SummaryCoversKeyMatches | backend/matching/formatter.py:210-219 | the summary holds exactly the items of the priority ≤ 2 matches |
| Formatter.ConflictRecordRoundTrip | backend/matching/formatter.py:284-292 | conflict records and conflicts are in bijection |
| Formatter.FormatForAI | backend/matching/formatter.py:77-132 | the total is the number of matches, the records read back to the matches in order, the feature count is the profile's, and the conflicts are those supplied, in order |
| Formatter.PriorityRequirementsAreCritical | backend/matching/formatter.py:99-103 | the formatted priority requirements are exactly the priority-1 records |
| Formatter.CriticalCount | backend/matching/formatter.py:99-103 | the number of priority requirements is the priority-1 count |
| Formatter.PromptCategories | backend/matching/formatter.py:312-315 | the prompt lists exactly the groups with priority ≤ 2 |
| Formatter.PromptContextAsWritten | backend/matching/formatter.py:303-338 | as written, building the prompt context fails iff the statistics are missing |
| Formatter.EmptyMatchesBreakPromptContext | backend/matching/formatter.py:250-251 | as written, an empty match list always makes the prompt context fail |
| Formatter.CreatePromptContext | backend/matching/formatter.py:303-338 | the corrected context always exists, lists the important groups, carries the total, and agrees with the original wherever the original succeeds |
| Formatter.PromptContextCountsMatches | backend/matching/formatter.py:326-328 | the corrected context's critical, important and total counts are those of the matches |
| Conditions.ParseOperator | agent/data_processor.py:150-170 | an operator name is read back to an operator with that name |
| Conditions.OperatorNameRoundTrip | agent/data_processor.py:150-170 | operator names and well-formed operators are in bijection |
| Conditions.EvaluateCondition | agent/data_processor.py:150-170 | a condition holds only if its attribute is present in the profile and its operator is known; the comparison each operator makes is stated by `Conditions.OperatorsRelate` |
| Conditions.OperatorsRelate | agent/data_processor.py:159-168 | on a present attribute, the four operators mean ≤, >, ≥ and = of the profile value against the condition value; `>` is the negation of `≤` and `≥` is `>` or `=` |
| Conditions.AnyClauseHolds | agent/data_processor.py:134-142 | an OR group holds iff one of its clauses holds |
| Conditions.CheckCompliance | agent/data_processor.py:128-148 | a chunk complies iff every condition holds, and a chunk without conditions always complies |
| Conditions.CompliantMembers | agent/data_processor.py:172-180 | the applicable chunks are exactly the chunks whose conditions all hold |
| Conditions.ApplicableRegulations | agent/data_processor.py:172-180 | the loop returns the compliant chunks in input order |
| Conditions.UnconditionalChunksApply | agent/data_processor.py:130-131 | a chunk without conditions applies to every profile |
| Conditions.NatTextRoundTrip | agent/data_processor.py:81 | the decimal rendering of a number reads back to that number |
| Conditions.ClauseText | agent/data_processor.py:44-54 | every clause renders to non-empty text, and an OR group is wrapped in parentheses |
| Conditions.ProcessConditionsShape | agent/data_processor.py:39-56 | the text is empty iff there are no conditions; each further condition is appended after the "and" separator |
| Conditions.EmptyOrGroup | agent/data_processor.py:44-50 | an empty OR group renders as "()" and never holds |
| Profiler.MissingFields | agent/business_profiler.py:139-143 | a required field is listed iff it is still unknown; none is listed iff seating, size and type are all known |
| Profiler.MissingFieldsInOrder | agent/business_profiler.py:29 | missing fields are listed in the order seating, size, type |
| Profiler.Update | agent/business_profiler.py:120-135 | every extracted field overwrites its old value and every other field keeps it; completeness is recomputed as "seating, size and type known" |
| Profiler.UpdateLaws | agent/business_profiler.py:120-135 | repeating an update changes nothing, an empty extraction leaves a consistent profile as it is, and a complete profile stays complete |
| Profiler.NextQuestion | agent/business_profiler.py:137-153 | there is no question iff nothing is missing; otherwise the question asks about a missing field, and every field asked earlier in the order type, seating, size is known |
| Profiler.MissingInfoSummary | agent/business_profiler.py:155-168 | one label per missing field, in order; for a consistent profile the list is empty iff the profile is complete |
| Profiler.FieldLabelsDistinct | agent/business_profiler.py:155-168 | different fields have different labels |
| Profiler.ProfileDict | agent/business_profiler.py:213-238 | each key is present iff its field is known (type non-empty, floors non-zero) and holds that field's value |
| Profiler.ResetForgetsEverything | agent/business_profiler.py:240-243 | after a reset nothing is known, the dictionary is empty, all three fields are missing, and the first question asks for the business type |
| Profiler.Lower | agent/business_profiler.py:98 | lower-casing keeps the length and maps each letter A-Z to its lower-case form |
| Profiler.DetectBusinessType | agent/business_profiler.py:98-106 | no type is detected iff no table entry is mentioned in the lower-cased text; otherwise the result is the standard name of the first entry, in table order, that is mentioned |
| Profiler.StandardNamesAreDetected | agent/business_profiler.py:53-64 | text containing a table entry's standard name always has some type detected |
| Pipeline.ProcessedMatches | backend/api/matching.py:150-153 | a request reports no more matches than the catalog has entries, sorted by (priority, chapter, section) and with unique ids; each comes from a catalog entry whose size and capacity gates pass, every id surviving the boundary and chapter stages is reported, and with a single chapter matched every matched id is |
| Pipeline.ProcessSingleMatch | backend/matching/rules.py:41-74 | a lone match is reported exactly as the feature rules adjust it |
| Pipeline.ComplexSignageIsEscalated | backend/tests/test_matching_engine.py:314-344 | the priority-3 signage match of a 300 m², 150-person business with gas, delivery and alcohol comes out alone at priority 2 with the complexity and delivery reasons |
| Pipeline.GasMatchIsElevated | backend/tests/test_matching_engine.py:290-312 | the priority-2 gas match of a gas-using business comes out alone at priority 1 |
| Pipeline.HandleProfile | backend/api/matching.py:248-259 | the total is the number of processed matches, at most the catalog size, and the session is left empty for the next request |
| Pipeline.ReportedConflicts | backend/api/matching.py:248-259 | the conflicts a request returns are the records of the session's earlier conflicts followed by this request's |
| Pipeline.HandleProfileReport | backend/api/matching.py:248-259 | the response reports the session's earlier conflicts, unchanged and in order, followed by this request's |
| Pipeline.BoundaryRequestReportsNothing | backend/api/matching.py:248-259 | a profile on the chapter-5 boundary (size exactly 150 or capacity exactly 50) on a fresh session gets an empty conflict report |
| Pipeline.RequestsAreIndependent | backend/api/matching.py:156-166 | because of the reset, a request's answer does not depend on the previous request |
| Pipeline.HandleQuestionnaire | backend/api/matching.py:142-166 | a questionnaire is rejected iff its size or seating is out of range; otherwise the session is reset, the feature count is the number of ticked boxes, and the total is at most the catalog size |
| Pipeline.PromptEndpointAsWritten | backend/api/matching.py:281-295 | as written, the prompt-context endpoint fails iff the request has no processed matches |
| Pipeline.EmptyCatalogBreaksPromptEndpoint | backend/api/matching.py:281-295 | as written, an empty catalog makes the endpoint fail for every profile |
| Pipeline.PromptEndpoint | backend/api/matching.py:281-295 | the corrected endpoint always answers, its counts are those of the processed matches, and it agrees with the original wherever the original answers |
| Pipeline.SmallBusinessMatchesGasAsWritten | backend/tests/test_matching_engine.py:125-139 | as written, an 80 m², 30-person business without features matches two requirements on the test catalog, one of them the gas system |
| Pipeline.SmallBusinessMatchesExtinguishersWhenEnforced | backend/tests/test_matching_engine.py:125-139 | with the feature gate enforced, the same business matches exactly the chapter 5 extinguishers, as the test expects |
| Pipeline.ConversationAttributes | agent/business_profiler.py:213-238 | the condition evaluator sees seating and size exactly when the conversation has learnt them, with the learnt values |
| Pipeline.UnknownFieldsBlockConditions | agent/data_processor.py:150-158 | a chunk conditioned on seating does not apply while seating is unknown; once seating is known, a "≤ v" chunk applies iff seating ≤ v |

## Left out

- Logging, which happens throughout: it has no effect on results.
- Loading regulatory data from JSON files. A loaded catalog is a parameter
  (`Engine.CatalogData`). `None` stands both for a failed load and for an
  empty document (`{}`), for both of which the statistics are empty.
- The Hebrew wording of reasons, category names, combined texts,
  recommendations and the prompt text. Reasons are a datatype (`Engine.Reason`),
  and the prompt context keeps the values it reports.
- Timestamps in formatted results: they come from the clock.
- `complexity_score` in the profile summary: it is a floating-point formula.
- Extraction from free text with regular expressions and keyword lists in
  `extract_info_from_text` (numbers, floors, kitchen, storage, outdoor seating). The
  extracted values are an input record (`Profiler.Extraction`). Business-type
  detection by phrase is modelled.
- Generating the welcome and summary messages and the question texts: these
  are fixed Hebrew strings. The question order is modelled.
- `create_chunks`: it only assembles embedding text and metadata.
  `Conditions.RegulationChunk` holds the fields that compliance reads.
- The retrieval and generation agents (rag_system.py, generator.py) and the UI.
- Object identity: when one Python match object appears in two lists, a later
  in-place priority change is visible through both lists. The model works with
  values.
- `Rules.ValidateRequirementSet` only logs warnings and returns its input
  unchanged, so its checks are not modelled.
- Metadata fields of requirements (standards, notes, sources): they are
  copied through and never inspected.
- Profiler.Lower: lower-cases ASCII letters only, not every Unicode letter
  that Python's `str.lower` changes.
- Conditions.EvaluateCondition: condition values and profile attributes are
  integers. Comparing with a text value, or a condition without a value, is
  not modelled.
- Pipeline.ConversationAttributes: gives booleans as 0/1 and drops the text
  business type, because conditions compare numbers.

## Findings

| source | as written | input that shows it | evidently intended | confidence | as-written member | corrected member |
|---|---|---|---|---|---|---|
| backend/matching/engine.py:142-148 | The failed feature check only decides whether to add a reason. The requirement is matched anyway. | An 80 m², 30-person profile with no features, against the catalog in backend/tests/test_matching_engine.py:66-110. Two requirements match: the extinguishers and the gas system, which requires gas usage. | A requirement that names special features applies only to a profile that has one of them. The small-business test then gets exactly one chapter 5 match. | not executed | Engine.FeatureGateNotEnforced, Pipeline.SmallBusinessMatchesGasAsWritten | Engine.EnforcedMatchesPassAllGates, Pipeline.SmallBusinessMatchesExtinguishersWhenEnforced |
| backend/matching/formatter.py:327-328 | With no matches, the statistics are an empty dict. The prompt context then reads `by_priority` from them, which raises `KeyError`. | Any profile whose processed match list is empty, for example any profile against an empty catalog. | The prompt context reports zero critical and zero important requirements. | not executed | Formatter.PromptContextAsWritten, Formatter.EmptyMatchesBreakPromptContext, Pipeline.EmptyCatalogBreaksPromptEndpoint | Formatter.CreatePromptContext, Formatter.PromptContextCountsMatches, Pipeline.PromptEndpoint |

=== FILE: conditions.dfy ===
/** The regulation-condition evaluator of the conversational agent: single
    comparisons on profile attributes, AND over a chunk's conditions, OR over
    clause groups, the selection of applicable chunks, and the readable text
    of a condition list. */
module Conditions {

  import opened Wrappers
  import opened Seqs

  /** The comparison operators, plus whatever other text the data holds
      (an absent operator reads as the empty name). */
  datatype Operator = LessOrEqual | Greater | GreaterOrEqual | EqualTo | UnknownOperator(name: string)

  function OperatorName(op: Operator): string {
    match op
    case LessOrEqual => "less_than_or_equal_to"
    case Greater => "greater_than"
    case GreaterOrEqual => "greater_than_or_equal_to"
    case EqualTo => "equal_to"
    case UnknownOperator(name) => name
  }

  function ParseOperator(s: string): (r: Operator)
    ensures OperatorName(r) == s
  {
    if s == "less_than_or_equal_to" then LessOrEqual
    else if s == "greater_than" then Greater
    else if s == "greater_than_or_equal_to" then GreaterOrEqual
    else if s == "equal_to" then EqualTo
    else UnknownOperator(s)
  }

  /** An unknown operator does not spell a known one. */
  predicate WellFormedOperator(op: Operator) {
    op.UnknownOperator? ==> op.name !in {"less_than_or_equal_to", "greater_than", "greater_than_or_equal_to", "equal_to"}
  }

  /** Parsing and naming are inverse on well-formed operators, and every
      parse is well formed. */
  lemma OperatorNameRoundTrip(op: Operator, s: string)
    requires WellFormedOperator(op)
    ensures ParseOperator(OperatorName(op)) == op
    ensures WellFormedOperator(ParseOperator(s))
  {
  }

  /** One comparison of a profile attribute with a threshold. */
  datatype Condition = Condition(attribute: Option<string>, op: Operator, value: int)

  /** A top-level entry: a plain condition or an OR group of clauses. */
  datatype Clause = Single(condition: Condition) | AnyOf(clauses: seq<Condition>)

  /** The business profile as the evaluator sees it: attribute name to value. */
  type Attributes = map<string, int>

  /** `_evaluate_condition`: false when the attribute is missing from the
      profile or the operator is unknown; otherwise the comparison. */
  function EvaluateCondition(c: Condition, profile: Attributes): (r: bool)
    ensures r ==> c.attribute.Some? && c.attribute.value in profile
    ensures r ==> !c.op.UnknownOperator?
  {
    match c.attribute
    case None => false
    case Some(a) =>
      if a !in profile then false
      else
        var have := profile[a];
        match c.op
        case LessOrEqual => have <= c.value
        case Greater => have > c.value
        case GreaterOrEqual => have >= c.value
        case EqualTo => have == c.value
        case UnknownOperator(_) => false
  }

  /** On a present attribute each operator is its comparison of the
      attribute's value with the threshold, and the operators relate as those
      comparisons do: `>` is the negation of `<=`, `>=` is `>` or `==`. */
  lemma OperatorsRelate(a: string, v: int, profile: Attributes)
    requires a in profile
    ensures EvaluateCondition(Condition(Some(a), LessOrEqual, v), profile) <==> profile[a] <= v
    ensures EvaluateCondition(Condition(Some(a), Greater, v), profile) <==> profile[a] > v
    ensures EvaluateCondition(Condition(Some(a), GreaterOrEqual, v), profile) <==> profile[a] >= v
    ensures EvaluateCondition(Condition(Some(a), Greater, v), profile)
            == !EvaluateCondition(Condition(Some(a), LessOrEqual, v), profile)
    ensures EvaluateCondition(Condition(Some(a), GreaterOrEqual, v), profile)
            == (EvaluateCondition(Condition(Some(a), Greater, v), profile)
                || EvaluateCondition(Condition(Some(a), EqualTo, v), profile))
    ensures EvaluateCondition(Condition(Some(a), EqualTo, v), profile) <==> profile[a] == v
  {
  }

  /** Whether an entry holds: a plain condition by itself, an OR group when
      some clause holds (so an empty group never holds). */
  predicate ClauseHolds(cl: Clause, profile: Attributes) {
    match cl
    case Single(c) => EvaluateCondition(c, profile)
    case AnyOf(cs) => exists i :: 0 <= i < |cs| && EvaluateCondition(cs[i], profile)
  }

  /** The conjunction the compliance check decides. */
  predicate AllHold(cls: seq<Clause>, profile: Attributes) {
    forall i :: 0 <= i < |cls| ==> ClauseHolds(cls[i], profile)
  }

  /** The OR loop: stops at the first clause that holds. */
  method AnyClauseHolds(cs: seq<Condition>, profile: Attributes) returns (r: bool)
    ensures r <==> exists i :: 0 <= i < |cs| && EvaluateCondition(cs[i], profile)
  {
    r := false;
    var i := 0;
    while i < |cs|
      invariant 0 <= i <= |cs|
      invariant forall j :: 0 <= j < i ==> !EvaluateCondition(cs[j], profile)
    {
      if EvaluateCondition(cs[i], profile) {
        r := true;
        return;
      }
      i := i + 1;
    }
  }

  /** `check_business_compliance`: true for no conditions; otherwise every
      plain condition and every OR group must hold, and the first failure
      answers false. */
  method CheckCompliance(cls: seq<Clause>, profile: Attributes) returns (r: bool)
    ensures r <==> AllHold(cls, profile)
    ensures |cls| == 0 ==> r
  {
    if |cls| == 0 {
      return true;
    }
    var i := 0;
    while i < |cls|
      invariant 0 <= i <= |cls|
      invariant forall j :: 0 <= j < i ==> ClauseHolds(cls[j], profile)
    {
      if cls[i].AnyOf? {
        var any := AnyClauseHolds(cls[i].clauses, profile);
        if !any {
          return false;
        }
      } else if !EvaluateCondition(cls[i].condition, profile) {
        return false;
      }
      i := i + 1;
    }
    return true;
  }

  /** One regulation as a searchable chunk (the embedding text and the
      metadata copy are not modelled). */
  datatype RegulationChunk = RegulationChunk(
    id: string,
    rawText: string,
    requirementName: string,
    category: string,
    sourceAuthority: string,
    docSource: string,
    conditions: seq<Clause>)

  /** The compliant chunks of `chunks`, in order: the reference the
      selection loop is checked against. */
  function Compliant(chunks: seq<RegulationChunk>, profile: Attributes): (r: seq<RegulationChunk>)
    ensures |r| <= |chunks|
  {
    if |chunks| == 0 then []
    else
      var last := chunks[|chunks| - 1];
      Compliant(chunks[..|chunks| - 1], profile) + (if AllHold(last.conditions, profile) then [last] else [])
  }

  /** The compliant chunks are exactly those whose conditions all hold. */
  lemma {:induction false} CompliantMembers(chunks: seq<RegulationChunk>, profile: Attributes)
    ensures forall c :: c in Compliant(chunks, profile) <==> c in chunks && AllHold(c.conditions, profile)
  {
    if |chunks| > 0 {
      var init := chunks[..|chunks| - 1];
      CompliantMembers(init, profile);
      assert chunks == init + [chunks[|chunks| - 1]];
    }
  }

  /** `get_applicable_regulations`: exactly the compliant chunks, in order. */
  method ApplicableRegulations(chunks: seq<RegulationChunk>, profile: Attributes) returns (r: seq<RegulationChunk>)
    ensures r == Compliant(chunks, profile)
  {
    r := [];
    var i := 0;
    while i < |chunks|
      invariant 0 <= i <= |chunks|
      invariant r == Compliant(chunks[..i], profile)
    {
      var ok := CheckCompliance(chunks[i].conditions, profile);
      assert chunks[..i + 1][..i] == chunks[..i];
      if ok {
        r := r + [chunks[i]];
      }
      i := i + 1;
    }
    assert chunks[..|chunks|] == chunks;
  }

  /** A chunk without conditions applies to every profile. */
  lemma UnconditionalChunksApply(chunk: RegulationChunk, profile: Attributes)
    requires chunk.conditions == []
    ensures Compliant([chunk], profile) == [chunk]
  {
  }

  /** The joiner of top-level parts ("and"). */
  const AndSeparator := " ו"
  /** The joiner inside an OR group ("or"). */
  const OrSeparator := " או "

  /** `sep.join(parts)`. */
  function Join(parts: seq<string>, sep: string): string {
    if |parts| == 0 then ""
    else if |parts| == 1 then parts[0]
    else Join(parts[..|parts| - 1], sep) + sep + parts[|parts| - 1]
  }

  /** Joining is empty exactly for no parts when every part is non-empty, and
      appending a part appends the separator and the part. */
  lemma {:induction false} JoinFacts(parts: seq<string>, sep: string, last: string)
    requires forall i :: 0 <= i < |parts| ==> parts[i] != ""
    ensures Join(parts, sep) == "" <==> |parts| == 0
    ensures Join(parts + [last], sep) == if |parts| == 0 then last else Join(parts, sep) + sep + last
  {
    assert (parts + [last])[..|parts|] == parts;
    if |parts| > 1 {
      JoinFacts(parts[..|parts| - 1], sep, parts[|parts| - 1]);
    }
  }

  function DigitChar(d: nat): char
    requires d < 10
  {
    "0123456789"[d]
  }

  function NatText(n: nat): (r: string)
    ensures |r| > 0
    ensures forall i :: 0 <= i < |r| ==> '0' <= r[i] <= '9'
    decreases n
  {
    if n < 10 then [DigitChar(n)] else NatText(n / 10) + [DigitChar(n % 10)]
  }

  /** The decimal value of a digit string. */
  function ParseNat(s: string): nat
    requires forall i :: 0 <= i < |s| ==> '0' <= s[i] <= '9'
  {
    if |s| == 0 then 0
    else ParseNat(s[..|s| - 1]) * 10 + ((s[|s| - 1] as int) - ('0' as int))
  }

  /** Decimal printing is read back exactly. */
  lemma {:induction false} NatTextRoundTrip(n: nat)
    ensures ParseNat(NatText(n)) == n
    decreases n
  {
    if n >= 10 {
      NatTextRoundTrip(n / 10);
      var s := NatText(n);
      assert s[..|s| - 1] == NatText(n / 10);
    }
  }

  /** `str(n)` for an integer. */
  function IntText(n: int): (r: string)
    ensures |r| > 0
  {
    if n < 0 then "-" + NatText(-n) else NatText(n)
  }

  /** The readable attribute name (two are translated, others pass through;
      a missing attribute reads as empty). */
  function AttributeText(a: Option<string>): string {
    match a
    case None => ""
    case Some(name) =>
      if name == "seating_capacity" then "כמות מקומות ישיבה"
      else if name == "size_sqm" then "שטח במ\"ר"
      else name
  }

  /** The readable operator (unknown operators pass through by name). */
  function OperatorText(op: Operator): string {
    match op
    case LessOrEqual => "עד"
    case Greater => "מעל"
    case GreaterOrEqual => "מ-"
    case EqualTo => "בדיוק"
    case UnknownOperator(name) => name
  }

  /** `_format_single_condition`: attribute, operator and value separated by
      single spaces. */
  function ConditionText(c: Condition): (r: string)
    ensures r != ""
  {
    AttributeText(c.attribute) + " " + OperatorText(c.op) + " " + IntText(c.value)
  }

  /** The text of an entry; an OR group is parenthesised. */
  function ClauseText(cl: Clause): (r: string)
    ensures cl.AnyOf? ==> |r| >= 2 && r[0] == '(' && r[|r| - 1] == ')'
    ensures r != ""
  {
    match cl
    case Single(c) => ConditionText(c)
    case AnyOf(cs) => "(" + Join(Map(cs, ConditionText), OrSeparator) + ")"
  }

  /** `process_conditions`: the entries' texts joined with the "and"
      separator. */
  function ProcessConditions(cls: seq<Clause>): string {
    Join(Map(cls, ClauseText), AndSeparator)
  }

  /** The condition text is empty exactly when there are no conditions, and
      each further entry adds the "and" separator and its own text. */
  lemma ProcessConditionsShape(cls: seq<Clause>, cl: Clause)
    ensures ProcessConditions(cls) == "" <==> |cls| == 0
    ensures ProcessConditions(cls + [cl])
            == if |cls| == 0 then ClauseText(cl) else ProcessConditions(cls) + AndSeparator + ClauseText(cl)
  {
    JoinFacts(Map(cls, ClauseText), AndSeparator, ClauseText(cl));
    assert Map(cls + [cl], ClauseText) == Map(cls, ClauseText) + [ClauseText(cl)];
  }

  /** An empty OR group prints as "()" and never holds. */
  lemma EmptyOrGroup(profile: Attributes)
    ensures ClauseText(AnyOf([])) == "()"
    ensures !ClauseHolds(AnyOf([]), profile)
  {
  }
}

=== FILE: engine.dfy ===
/** The requirement matcher: catalog records, the three applicability gates,
    the initial priority, the sorted match list, threshold applicability and
    catalog statistics. */
module Engine {

  import opened Wrappers
  import opened Seqs
  import opened Ordering
  import opened Profile

  /** Requirement categories; any other catalog spelling is kept verbatim.
      Only well-formed values (`WellFormedCategory`: an `Other` never spells
      one of the six known names) stand for a catalog category; they are the
      values `ParseCategory` yields, and the model builds categories only
      through it or through the named constructors. */
  datatype Category =
    | FireEquipment
    | Electrical
    | Gas
    | Signage
    | Certifications
    | General
    | Other(name: string)

  function CategoryName(c: Category): string {
    match c
    case FireEquipment => "fire_equipment"
    case Electrical => "electrical"
    case Gas => "gas"
    case Signage => "signage"
    case Certifications => "certifications"
    case General => "general"
    case Other(n) => n
  }

  /** Reads a catalog category string. */
  function ParseCategory(s: string): (c: Category)
    ensures CategoryName(c) == s
  {
    if s == "fire_equipment" then FireEquipment
    else if s == "electrical" then Electrical
    else if s == "gas" then Gas
    else if s == "signage" then Signage
    else if s == "certifications" then Certifications
    else if s == "general" then General
    else Other(s)
  }

  /** `Other` never spells a known category, so names identify categories. */
  ghost predicate WellFormedCategory(c: Category) {
    c.Other? ==> ParseCategory(c.name) == c
  }

  /** Category names and parsing are inverse on well-formed categories, and
      distinct well-formed categories have distinct names. */
  lemma CategoryNameRoundTrip(c: Category, d: Category, s: string)
    ensures WellFormedCategory(ParseCategory(s))
    ensures WellFormedCategory(c) ==> ParseCategory(CategoryName(c)) == c
    ensures WellFormedCategory(c) && WellFormedCategory(d) && CategoryName(c) == CategoryName(d) ==> c == d
  {
  }

  /** The default lower and upper ends of an applicability range. */
  const RangeMin := 0
  const RangeMax := 9999

  /** An applicability range whose ends may be absent from the catalog. */
  datatype Bounds = Bounds(min: Option<int>, max: Option<int>)

  function Lo(b: Bounds): int { b.min.GetOr(RangeMin) }
  function Hi(b: Bounds): int { b.max.GetOr(RangeMax) }

  /** A catalog entry. Absent id, chapter, section, title and content read as
      "", 0, "", "", ""; an absent category is kept absent because matching and
      statistics default it differently; a present category is well formed. Standards and certifications are
      pass-through metadata and are not modelled. */
  datatype Requirement = Requirement(
    id: string,
    chapter: int,
    section: string,
    category: Option<Category>,
    title: string,
    content: string,
    sizeRange: Bounds,
    capacityRange: Bounds,
    features: seq<string>)

  /** The category a requirement is matched under (absent reads as general). */
  function CategoryOf(req: Requirement): Category {
    req.category.GetOr(General)
  }

  datatype Dimension = Area | Occupancy

  /** Why a requirement applies; the localized sentences are left out. */
  datatype Reason =
    | Within(dim: Dimension, value: int, lo: int, hi: int)
    | Above(dim: Dimension, value: int, lo: int)
    | UpTo(dim: Dimension, value: int, hi: int)
    | SpecialFeatures(features: set<Feature>)
    | DeliveryService
    | ComplexBusiness
    | Note(text: string)

  /** A requirement found applicable, with its justification and priority
      (1 critical, 2 important, 3 recommended). */
  datatype RequirementMatch = RequirementMatch(
    id: string,
    chapter: int,
    section: string,
    category: Category,
    title: string,
    content: string,
    reasons: seq<Reason>,
    priority: int)

  /** The outcome of one gate. */
  datatype GateResult = GateResult(matches: bool, reason: Option<Reason>)

  /** The range gate, shared by size and capacity: inclusive at both ends, and
      a reason only when the range is narrower than the default one. */
  function CheckRange(dim: Dimension, b: Bounds, value: int): (r: GateResult)
    ensures r.matches <==> Lo(b) <= value <= Hi(b)
    ensures r.reason.Some? <==> r.matches && (Lo(b) > RangeMin || Hi(b) < RangeMax)
    ensures r.reason.Some? && r.reason.value.Within? <==> r.matches && Lo(b) > RangeMin && Hi(b) < RangeMax
    ensures r.reason.Some? && r.reason.value.Above? <==> r.matches && Lo(b) > RangeMin && Hi(b) >= RangeMax
    ensures r.reason.Some? && r.reason.value.UpTo? <==> r.matches && Lo(b) <= RangeMin && Hi(b) < RangeMax
    ensures r.reason.Some? ==> r.reason.value.dim == dim && r.reason.value.value == value
  {
    var lo, hi := Lo(b), Hi(b);
    var matches := lo <= value && value <= hi;
    var reason :=
      if matches && (lo > RangeMin || hi < RangeMax) then
        if lo > RangeMin && hi < RangeMax then Some(Within(dim, value, lo, hi))
        else if lo > RangeMin then Some(Above(dim, value, lo))
        else Some(UpTo(dim, value, hi))
      else None;
    GateResult(matches, reason)
  }

  /** Both ends are inclusive: the exact bounds pass, one step outside fails;
      a range with neither end given admits every valid profile value silently. */
  lemma RangeGateBoundaries(dim: Dimension, b: Bounds, value: int)
    ensures Lo(b) <= Hi(b) ==> CheckRange(dim, b, Lo(b)).matches && CheckRange(dim, b, Hi(b)).matches
    ensures !CheckRange(dim, b, Lo(b) - 1).matches && !CheckRange(dim, b, Hi(b) + 1).matches
    ensures b == Bounds(None, None) && 0 < value <= SizeReasonableMax ==> CheckRange(dim, b, value) == GateResult(true, None)
  {
  }

  /** The profile features the requirement names. */
  function MatchedFeatures(required: seq<string>, have: seq<Feature>): (r: set<Feature>)
    ensures forall f :: f in r <==> f in have && FeatureName(f) in required
  {
    set f | f in have && FeatureName(f) in required
  }

  /** The feature gate: vacuous when the requirement names no feature,
      otherwise it needs an overlap; a reason exactly when there is one. */
  function CheckFeatures(required: seq<string>, have: seq<Feature>): (r: GateResult)
    ensures r.matches <==> |required| == 0 || exists f :: f in have && FeatureName(f) in required
    ensures r.reason.Some? <==> exists f :: f in have && FeatureName(f) in required
    ensures r.reason.Some? ==> r.reason.value.SpecialFeatures?
    ensures r.reason.Some? ==> forall f :: f in r.reason.value.features <==> f in have && FeatureName(f) in required
  {
    var matched := MatchedFeatures(required, have);
    assert (exists f :: f in have && FeatureName(f) in required) ==> matched != {};
    GateResult(
      if |required| > 0 then matched != {} else true,
      if matched != {} then Some(SpecialFeatures(matched)) else None)
  }

  /** Categories that are critical whatever the business. */
  predicate AlwaysCritical(c: Category) {
    c == FireEquipment || c == Electrical || c == Certifications
  }

  /** The fixed category-to-priority table (unknown categories read as 3). */
  function DefaultPriority(c: Category): int {
    match c
    case FireEquipment => 1
    case Electrical => 1
    case Certifications => 1
    case Gas => 2
    case Signage => 2
    case General => 3
    case Other(_) => 3
  }

  /** A large business: over 300 m² or over 200 people. */
  predicate IsLarge(p: BusinessProfile) {
    p.size > 300 || p.capacity > 200
  }

  /** Initial priority, in the source's order of checks. */
  function CalculatePriority(c: Category, p: BusinessProfile): (r: int)
    ensures 1 <= r <= 3
  {
    if AlwaysCritical(c) then 1
    else if c == Gas && GasUsage in p.features then 1
    else if IsLarge(p) && (c == Signage || c == Electrical) then 2
    else DefaultPriority(c)
  }

  /** What each category gets: critical categories 1, gas 1 exactly with gas
      usage and 2 otherwise, signage 2, general and unknown categories 3. */
  lemma PriorityByCategory(c: Category, p: BusinessProfile)
    ensures AlwaysCritical(c) ==> CalculatePriority(c, p) == 1
    ensures c == Gas ==> (CalculatePriority(c, p) == 1 <==> GasUsage in p.features)
    ensures c == Gas && GasUsage !in p.features ==> CalculatePriority(c, p) == 2
    ensures c == Signage ==> CalculatePriority(c, p) == 2
    ensures c == General || c.Other? ==> CalculatePriority(c, p) == 3
    ensures CalculatePriority(c, p) == 1 <==> AlwaysCritical(c) || (c == Gas && GasUsage in p.features)
  {
  }

  /** The large-business branch never changes a priority: the result depends
      on the category and on gas usage only, never on size or capacity. */
  lemma PriorityIgnoresSizeAndCapacity(c: Category, p: BusinessProfile, q: BusinessProfile)
    requires GasUsage in p.features <==> GasUsage in q.features
    ensures CalculatePriority(c, p) == CalculatePriority(c, q)
    ensures CalculatePriority(c, p) == (if c == Gas && GasUsage in p.features then 1 else DefaultPriority(c))
  {
  }

  /** Whether a feature gate that fails also filters the requirement out. The
      source computes the gate but only uses its reason (`ReasonOnly`); its
      tests expect filtering (`Enforced`). */
  datatype FeatureGatePolicy = ReasonOnly | Enforced

  /** The policy of the code as written. */
  const SourcePolicy := ReasonOnly

  ghost predicate SizeGate(req: Requirement, p: BusinessProfile) {
    Lo(req.sizeRange) <= p.size <= Hi(req.sizeRange)
  }

  ghost predicate CapacityGate(req: Requirement, p: BusinessProfile) {
    Lo(req.capacityRange) <= p.capacity <= Hi(req.capacityRange)
  }

  ghost predicate FeatureGate(req: Requirement, p: BusinessProfile) {
    |req.features| == 0 || exists f :: f in p.features && FeatureName(f) in req.features
  }

  /** Evaluating one requirement: `None` when a gate rejects it, otherwise a
      match carrying the gate reasons (size, capacity, features, in that order)
      and the initial priority. */
  function EvaluateRequirement(req: Requirement, p: BusinessProfile, policy: FeatureGatePolicy): (r: Option<RequirementMatch>)
    ensures r.Some? <==> SizeGate(req, p) && CapacityGate(req, p) && (policy == Enforced ==> FeatureGate(req, p))
    ensures r.Some? ==> && r.value.id == req.id
                        && r.value.chapter == req.chapter
                        && r.value.section == req.section
                        && r.value.title == req.title
                        && r.value.content == req.content
                        && r.value.category == CategoryOf(req)
                        && r.value.priority == CalculatePriority(CategoryOf(req), p)
                        && 1 <= r.value.priority <= 3
                        && |r.value.reasons| <= 3
    ensures r.Some? ==> r.value.reasons == CheckRange(Area, req.sizeRange, p.size).reason.ToSeq()
                                         + CheckRange(Occupancy, req.capacityRange, p.capacity).reason.ToSeq()
                                         + CheckFeatures(req.features, p.features).reason.ToSeq()
    ensures r.Some? ==> ((exists x :: x in r.value.reasons && x.SpecialFeatures?)
                          <==> exists f :: f in p.features && FeatureName(f) in req.features)
  {
    var size := CheckRange(Area, req.sizeRange, p.size);
    var capacity := CheckRange(Occupancy, req.capacityRange, p.capacity);
    var features := CheckFeatures(req.features, p.features);
    if !size.matches || !capacity.matches then None
    else if policy == Enforced && !features.matches then None
    else
      var category := CategoryOf(req);
      var reasons := size.reason.ToSeq() + capacity.reason.ToSeq() + features.reason.ToSeq();
      assert forall x :: x in size.reason.ToSeq() + capacity.reason.ToSeq() ==> !x.SpecialFeatures?;
      assert features.reason.Some? ==> features.reason.value in reasons;
      Some(RequirementMatch(req.id, req.chapter, req.section, category, req.title, req.content,
                            reasons, CalculatePriority(category, p)))
  }

  /** The sort key `(priority, chapter, section)`. */
  function MatchKey(m: RequirementMatch): SortKey {
    SortKey(m.priority, m.chapter, m.section)
  }

  /** The matches of the catalog, in catalog order. */
  function Candidates(catalog: seq<Requirement>, p: BusinessProfile, policy: FeatureGatePolicy): (r: seq<RequirementMatch>)
    ensures |r| <= |catalog|
  {
    if |catalog| == 0 then []
    else EvaluateRequirement(catalog[0], p, policy).ToSeq() + Candidates(catalog[1..], p, policy)
  }

  /** The candidates are exactly the matches some catalog entry produces. */
  lemma {:induction false} CandidatesMembers(catalog: seq<Requirement>, p: BusinessProfile, policy: FeatureGatePolicy)
    ensures forall m :: m in Candidates(catalog, p, policy)
                        <==> exists req :: req in catalog && EvaluateRequirement(req, p, policy) == Some(m)
  {
    if |catalog| > 0 {
      CandidatesMembers(catalog[1..], p, policy);
      assert forall req :: req in catalog <==> req == catalog[0] || req in catalog[1..] by {
        assert catalog == [catalog[0]] + catalog[1..];
      }
    }
  }

  /** `match_requirements`: evaluates every catalog entry and sorts the matches
      by `(priority, chapter, section)`; an empty catalog gives no match. */
  function MatchRequirements(catalog: seq<Requirement>, p: BusinessProfile, policy: FeatureGatePolicy): (r: seq<RequirementMatch>)
    ensures |catalog| == 0 ==> r == []
    ensures r == SortBy(Candidates(catalog, p, policy), MatchKey)
    ensures |r| <= |catalog|
    ensures SortedBy(r, MatchKey)
    ensures multiset(r) == multiset(Candidates(catalog, p, policy))
    ensures forall m :: m in r ==> exists req :: && req in catalog
                                                 && EvaluateRequirement(req, p, policy) == Some(m)
                                                 && SizeGate(req, p) && CapacityGate(req, p)
    ensures forall req :: req in catalog && SizeGate(req, p) && CapacityGate(req, p)
                          && (policy == Enforced ==> FeatureGate(req, p))
                          ==> EvaluateRequirement(req, p, policy).value in r
  {
    if |catalog| == 0 then []
    else
      var candidates := Candidates(catalog, p, policy);
      CandidatesMembers(catalog, p, policy);
      var sorted := SortBy(candidates, MatchKey);
      assert forall m :: m in sorted <==> m in candidates by {
        assert forall m :: m in sorted <==> m in multiset(sorted);
        assert forall m :: m in candidates <==> m in multiset(candidates);
      }
      sorted
  }

  /** Every match priority is a valid tier. */
  lemma MatchPrioritiesAreTiers(catalog: seq<Requirement>, p: BusinessProfile, policy: FeatureGatePolicy)
    ensures forall m :: m in MatchRequirements(catalog, p, policy) ==> 1 <= m.priority <= 3
  {
  }

  /** As written, a requirement whose feature gate fails still matches when its
      size and capacity gates pass. */
  lemma FeatureGateNotEnforced(req: Requirement, p: BusinessProfile)
    requires SizeGate(req, p) && CapacityGate(req, p) && !FeatureGate(req, p)
    ensures EvaluateRequirement(req, p, SourcePolicy).Some?
    ensures !CheckFeatures(req.features, p.features).matches
  {
  }

  /** With the gate enforced, every match passes all three gates. */
  lemma EnforcedMatchesPassAllGates(catalog: seq<Requirement>, p: BusinessProfile)
    ensures forall m :: m in MatchRequirements(catalog, p, Enforced) ==>
              exists req :: && req in catalog
                            && EvaluateRequirement(req, p, Enforced) == Some(m)
                            && SizeGate(req, p) && CapacityGate(req, p) && FeatureGate(req, p)
  {
  }

  /** How a threshold is triggered; any other spelling never triggers. */
  datatype Trigger = Maximum | Minimum | OtherTrigger(name: string)

  /** An area or capacity threshold (value absent reads as 0, trigger absent
      as maximum). */
  datatype Threshold = Threshold(value: Option<int>, trigger: Option<Trigger>)

  /** A combined area-and-capacity threshold (absent values read as 0). */
  datatype CombinedThreshold = CombinedThreshold(sqm: Option<int>, people: Option<int>)

  datatype Thresholds = Thresholds(
    area: seq<Threshold>,
    capacity: seq<Threshold>,
    combined: seq<CombinedThreshold>)

  predicate ThresholdApplies(t: Threshold, v: int) {
    match t.trigger.GetOr(Maximum)
    case Maximum => v <= t.value.GetOr(0)
    case Minimum => v >= t.value.GetOr(0)
    case OtherTrigger(_) => false
  }

  function AppliesAt(v: int): Threshold -> bool {
    t => ThresholdApplies(t, v)
  }

  function CombinedAppliesAt(size: int, capacity: int): CombinedThreshold -> bool {
    (t: CombinedThreshold) => size >= t.sqm.GetOr(0) && capacity >= t.people.GetOr(0)
  }

  /** `get_applicable_thresholds`: each list keeps, in order, the thresholds the
      profile triggers. */
  function ApplicableThresholds(ts: Thresholds, p: BusinessProfile): (r: Thresholds)
    ensures forall t :: t in r.area <==>
              (t in ts.area &&
               ((t.trigger.GetOr(Maximum) == Maximum && p.size <= t.value.GetOr(0))
                || (t.trigger.GetOr(Maximum) == Minimum && p.size >= t.value.GetOr(0))))
    ensures forall t :: t in r.capacity <==>
              (t in ts.capacity &&
               ((t.trigger.GetOr(Maximum) == Maximum && p.capacity <= t.value.GetOr(0))
                || (t.trigger.GetOr(Maximum) == Minimum && p.capacity >= t.value.GetOr(0))))
    ensures forall t :: t in r.combined <==>
              (t in ts.combined && p.size >= t.sqm.GetOr(0) && p.capacity >= t.people.GetOr(0))
    ensures |r.area| <= |ts.area| && |r.capacity| <= |ts.capacity| && |r.combined| <= |ts.combined|
    ensures r.area == Filter(ts.area, AppliesAt(p.size))
    ensures r.capacity == Filter(ts.capacity, AppliesAt(p.capacity))
    ensures r.combined == Filter(ts.combined, CombinedAppliesAt(p.size, p.capacity))
  {
    FilterMembers(ts.area, AppliesAt(p.size));
    FilterMembers(ts.capacity, AppliesAt(p.capacity));
    FilterMembers(ts.combined, CombinedAppliesAt(p.size, p.capacity));
    Thresholds(
      Filter(ts.area, AppliesAt(p.size)),
      Filter(ts.capacity, AppliesAt(p.capacity)),
      Filter(ts.combined, CombinedAppliesAt(p.size, p.capacity)))
  }

  /** The thresholds a profile triggers in a document made of two parts are
      those it triggers in the first part followed by those of the second:
      document order is kept and nothing is merged. */
  lemma ApplicableThresholdsConcat(a: Thresholds, b: Thresholds, p: BusinessProfile)
    ensures var r := ApplicableThresholds(Thresholds(a.area + b.area, a.capacity + b.capacity, a.combined + b.combined), p);
            && r.area == ApplicableThresholds(a, p).area + ApplicableThresholds(b, p).area
            && r.capacity == ApplicableThresholds(a, p).capacity + ApplicableThresholds(b, p).capacity
            && r.combined == ApplicableThresholds(a, p).combined + ApplicableThresholds(b, p).combined
  {
    FilterConcat(a.area, b.area, AppliesAt(p.size));
    FilterConcat(a.capacity, b.capacity, AppliesAt(p.capacity));
    FilterConcat(a.combined, b.combined, CombinedAppliesAt(p.size, p.capacity));
  }

  /** A loaded, non-empty catalog document. */
  datatype CatalogData = CatalogData(requirements: seq<Requirement>, thresholds: Thresholds)

  datatype CatalogStats = CatalogStats(
    total: nat,
    byCategory: seq<Entry<Category>>,
    byChapter: seq<Entry<int>>,
    areaThresholds: nat,
    capacityThresholds: nat,
    combinedThresholds: nat)

  /** The category a requirement is counted under (absent reads as "unknown"). */
  function StatCategory(req: Requirement): Category {
    req.category.GetOr(Other("unknown"))
  }

  function ChapterOf(req: Requirement): int {
    req.chapter
  }

  /** `get_statistics`: nothing when no catalog is loaded or the loaded
      document is empty (`None` stands for both); otherwise per-category
      and per-chapter counters in first-seen order, each summing to the number
      of requirements, and the threshold list lengths. */
  function CatalogStatistics(data: Option<CatalogData>): (r: Option<CatalogStats>)
    ensures r.Some? <==> data.Some?
    ensures r.Some? ==> && r.value.total == |data.value.requirements|
                        && Total(r.value.byCategory) == r.value.total
                        && Total(r.value.byChapter) == r.value.total
                        && Distinct(EntryKeys(r.value.byCategory))
                        && Distinct(EntryKeys(r.value.byChapter))
    ensures r.Some? ==> forall c :: Lookup(r.value.byCategory, c)
                                    == multiset(Map(data.value.requirements, StatCategory))[c]
    ensures r.Some? ==> forall n :: Lookup(r.value.byChapter, n)
                                    == multiset(Map(data.value.requirements, ChapterOf))[n]
    ensures r.Some? ==> && r.value.areaThresholds == |data.value.thresholds.area|
                        && r.value.capacityThresholds == |data.value.thresholds.capacity|
                        && r.value.combinedThresholds == |data.value.thresholds.combined|
  {
    match data
    case None => None
    case Some(d) =>
      var categories := Map(d.requirements, StatCategory);
      var chapters := Map(d.requirements, ChapterOf);
      TallyCounts(categories);
      TallyCounts(chapters);
      Some(CatalogStats(|d.requirements|, Tally(categories), Tally(chapters),
                        |d.thresholds.area|, |d.thresholds.capacity|, |d.thresholds.combined|))
  }
}

=== FILE: formatter.dfy ===
/** The structural part of the output formatter: match records, the
    priority-1 subset, grouping by category, statistics, the key-requirement
    summary, conflict records and the prompt context. The rendered Hebrew
    text is not modelled. */
module Formatter {

  import opened Wrappers
  import opened Seqs
  import opened Ordering
  import opened Profile
  import opened Engine
  import opened Rules

  /** The priority labels (critical, important, recommended, unknown). */
  datatype PriorityLabel = Critical | Important | Recommended | UnknownPriority

  /** `_get_priority_text`. */
  function PriorityText(priority: int): (r: PriorityLabel)
    ensures r == UnknownPriority <==> priority !in {1, 2, 3}
  {
    if priority == 1 then Critical
    else if priority == 2 then Important
    else if priority == 3 then Recommended
    else UnknownPriority
  }

  /** The tier a label names, if any. */
  function LabelTier(l: PriorityLabel): Option<int> {
    match l
    case Critical => Some(1)
    case Important => Some(2)
    case Recommended => Some(3)
    case UnknownPriority => None
  }

  /** The three tiers have three distinct labels, and every other number
      reads as unknown. */
  lemma PriorityTextRoundTrip(priority: int)
    ensures 1 <= priority <= 3 ==> LabelTier(PriorityText(priority)) == Some(priority)
    ensures !(1 <= priority <= 3) ==> LabelTier(PriorityText(priority)) == None
  {
  }

  /** The serialized form of a match (the Hebrew category name is derived). */
  datatype MatchRecord = MatchRecord(
    id: string,
    chapter: int,
    section: string,
    category: Category,
    title: string,
    content: string,
    reasons: seq<Reason>,
    priority: int,
    priorityText: PriorityLabel)

  /** `_requirement_match_to_dict`. */
  function ToRecord(m: RequirementMatch): (r: MatchRecord)
    ensures r.priorityText == PriorityText(m.priority)
  {
    MatchRecord(m.id, m.chapter, m.section, m.category, m.title, m.content, m.reasons, m.priority,
                PriorityText(m.priority))
  }

  function FromRecord(r: MatchRecord): RequirementMatch {
    RequirementMatch(r.id, r.chapter, r.section, r.category, r.title, r.content, r.reasons, r.priority)
  }

  /** Serialization loses nothing: a record reads back as its match. */
  lemma RecordRoundTrip(m: RequirementMatch)
    ensures FromRecord(ToRecord(m)) == m
  {
  }

  function IsCritical(m: RequirementMatch): bool {
    m.priority == 1
  }

  function IsKey(m: RequirementMatch): bool {
    m.priority <= 2
  }

  /** The priority-1 matches, in order. */
  function CriticalMatches(ms: seq<RequirementMatch>): (r: seq<RequirementMatch>)
    ensures forall m :: m in r <==> m in ms && m.priority == 1
    ensures |r| <= |ms|
  {
    FilterMembers(ms, IsCritical);
    Filter(ms, IsCritical)
  }

  function MatchCategory(m: RequirementMatch): Category {
    m.category
  }

  /** The matches of category `c`, in order. */
  function InCategory(ms: seq<RequirementMatch>, c: Category): (r: seq<RequirementMatch>)
    ensures forall m :: m in r <==> m in ms && m.category == c
    ensures |r| <= |ms|
  {
    if |ms| == 0 then []
    else
      assert forall m :: m in ms <==> m == ms[0] || m in ms[1..] by {
        assert ms == [ms[0]] + ms[1..];
      }
      (if ms[0].category == c then [ms[0]] else []) + InCategory(ms[1..], c)
  }

  lemma MapCons<T, U>(xs: seq<T>, f: T -> U)
    requires |xs| > 0
    ensures Map(xs, f) == [f(xs[0])] + Map(xs[1..], f)
  {
  }

  /** A category's members are as many as its occurrences. */
  lemma {:induction false} InCategoryCount(ms: seq<RequirementMatch>, c: Category)
    ensures |InCategory(ms, c)| == multiset(Map(ms, MatchCategory))[c]
  {
    if |ms| > 0 {
      InCategoryCount(ms[1..], c);
      MapCons(ms, MatchCategory);
    }
  }

  /** The smallest priority among `ms` (Python's `min`). */
  function MinPriority(ms: seq<RequirementMatch>): (r: int)
    requires |ms| > 0
    ensures forall m :: m in ms ==> r <= m.priority
    ensures exists m :: m in ms && m.priority == r
  {
    if |ms| == 1 then ms[0].priority
    else
      var rest := MinPriority(ms[1..]);
      assert forall m :: m in ms <==> m == ms[0] || m in ms[1..] by {
        assert ms == [ms[0]] + ms[1..];
      }
      if ms[0].priority <= rest then ms[0].priority else rest
  }

  /** One category group (the combined Hebrew text is not modelled). */
  datatype CategoryGroup = CategoryGroup(
    category: Category,
    priority: int,
    requirements: seq<MatchRecord>,
    count: nat)

  function GroupCategory(g: CategoryGroup): Category {
    g.category
  }

  /** Groups sort by `(priority, category_name)`. */
  function GroupKey(g: CategoryGroup): SortKey {
    SortKey(g.priority, 0, CategoryName(g.category))
  }

  /** The group of category `c`, which has at least one member. */
  function GroupFor(ms: seq<RequirementMatch>, c: Category): (g: CategoryGroup)
    requires InCategory(ms, c) != []
    ensures g.category == c
  {
    var members := InCategory(ms, c);
    CategoryGroup(c, MinPriority(members), Map(members, ToRecord), |members|)
  }

  /** Every group is exactly its category's matches, counted, with their
      smallest priority. */
  ghost predicate GroupOf(ms: seq<RequirementMatch>, g: CategoryGroup) {
    && g.requirements == Map(InCategory(ms, g.category), ToRecord)
    && g.count == |g.requirements| > 0
    && (forall m :: m in ms && m.category == g.category ==> g.priority <= m.priority)
    && (exists m :: m in ms && m.category == g.category && m.priority == g.priority)
  }

  lemma GroupForIsExact(ms: seq<RequirementMatch>, c: Category)
    requires InCategory(ms, c) != []
    ensures GroupOf(ms, GroupFor(ms, c))
  {
  }

  /** The groups of the categories `cats`, in that order. */
  function BuildGroups(ms: seq<RequirementMatch>, cats: seq<Category>): (r: seq<CategoryGroup>)
    requires forall c :: c in cats ==> InCategory(ms, c) != []
    ensures |r| == |cats|
    ensures forall i :: 0 <= i < |r| ==> cats[i] in cats && r[i] == GroupFor(ms, cats[i])
  {
    seq(|cats|, i requires 0 <= i < |cats| => assert cats[i] in cats; GroupFor(ms, cats[i]))
  }

  /** The categories in first-seen order (the insertion order of the
      grouping dictionary). */
  function FirstSeenCategories(ms: seq<RequirementMatch>): (r: seq<Category>)
    ensures Distinct(r)
    ensures forall c :: c in r ==> InCategory(ms, c) != []
    ensures forall m :: m in ms ==> m.category in r
    ensures |r| <= |ms|
  {
    var cats := Map(ms, MatchCategory);
    TallyCounts(cats);
    EntryCountBound(Tally(cats));
    forall c | c in cats
      ensures InCategory(ms, c) != []
    {
      var i :| 0 <= i < |cats| && cats[i] == c;
      assert ms[i] in InCategory(ms, c);
    }
    forall m | m in ms
      ensures m.category in cats
    {
      var i :| 0 <= i < |ms| && ms[i] == m;
      assert cats[i] == m.category;
    }
    EntryKeys(Tally(cats))
  }

  /** Positive counters number at most their total. */
  lemma {:induction false} EntryCountBound<K>(entries: seq<Entry<K>>)
    requires forall e :: e in entries ==> e.count > 0
    ensures |entries| <= Total(entries)
  {
    if |entries| > 0 {
      assert entries[0] in entries;
      assert forall e :: e in entries[1..] ==> e in entries;
      EntryCountBound(entries[1..]);
    }
  }

  /** The groups in first-seen category order, before sorting. */
  function UnsortedGroups(ms: seq<RequirementMatch>): (r: seq<CategoryGroup>)
    ensures |r| == |FirstSeenCategories(ms)| <= |ms|
    ensures forall i :: 0 <= i < |r| ==> r[i].category == FirstSeenCategories(ms)[i]
  {
    BuildGroups(ms, FirstSeenCategories(ms))
  }

  /** `_group_by_category`: the groups sorted by `(priority, category_name)`. */
  function GroupByCategory(ms: seq<RequirementMatch>): (r: seq<CategoryGroup>)
    ensures SortedBy(r, GroupKey)
    ensures multiset(r) == multiset(UnsortedGroups(ms))
  {
    SortBy(UnsortedGroups(ms), GroupKey)
  }

  /** Before sorting, the groups have distinct categories. */
  lemma UnsortedGroupsDistinct(ms: seq<RequirementMatch>)
    ensures DistinctKeys(UnsortedGroups(ms), GroupCategory)
  {
    var cats := FirstSeenCategories(ms);
    var groups := UnsortedGroups(ms);
    forall i, j | 0 <= i < j < |groups|
      ensures GroupCategory(groups[i]) != GroupCategory(groups[j])
    {
      assert cats[i] != cats[j];
    }
  }

  /** Before sorting, every group is exact. */
  lemma UnsortedGroupsExact(ms: seq<RequirementMatch>)
    ensures forall g :: g in UnsortedGroups(ms) ==> GroupOf(ms, g)
  {
    var cats := FirstSeenCategories(ms);
    var groups := BuildGroups(ms, cats);
    forall g | g in groups
      ensures GroupOf(ms, g)
    {
      var i :| 0 <= i < |groups| && groups[i] == g;
      GroupForIsExact(ms, cats[i]);
    }
  }

  /** Before sorting, every category present has a group. */
  lemma UnsortedGroupsCover(ms: seq<RequirementMatch>)
    ensures forall m :: m in ms ==> exists g :: g in UnsortedGroups(ms) && g.category == m.category
  {
    var cats := FirstSeenCategories(ms);
    var groups := UnsortedGroups(ms);
    forall m | m in ms
      ensures exists g :: g in groups && g.category == m.category
    {
      assert m.category in cats;
      var i :| 0 <= i < |cats| && cats[i] == m.category;
      assert groups[i] in groups;
    }
  }

  /** Sorting keeps exactly the same groups. */
  lemma GroupByCategoryMembers(ms: seq<RequirementMatch>)
    ensures forall g :: g in GroupByCategory(ms) <==> g in UnsortedGroups(ms)
    ensures |GroupByCategory(ms)| == |UnsortedGroups(ms)|
  {
    var groups := UnsortedGroups(ms);
    var sorted := GroupByCategory(ms);
    assert forall g :: g in sorted <==> g in multiset(sorted);
    assert forall g :: g in groups <==> g in multiset(groups);
    assert |sorted| == |multiset(sorted)| == |multiset(groups)| == |groups|;
  }

  /** The groups partition the matches by category: one group per category
      present, each exactly that category's matches in order, counted, with
      their smallest priority. */
  lemma GroupsPartitionMatches(ms: seq<RequirementMatch>)
    ensures DistinctKeys(GroupByCategory(ms), GroupCategory)
    ensures forall g :: g in GroupByCategory(ms) ==> GroupOf(ms, g)
    ensures forall m :: m in ms ==> exists g :: g in GroupByCategory(ms) && g.category == m.category
    ensures |GroupByCategory(ms)| <= |ms|
  {
    UnsortedGroupsDistinct(ms);
    UnsortedGroupsExact(ms);
    UnsortedGroupsCover(ms);
    SortByKeepsDistinctKeys(UnsortedGroups(ms), GroupKey, GroupCategory);
    GroupByCategoryMembers(ms);
  }

  function MatchPriority(m: RequirementMatch): int {
    m.priority
  }

  function MatchChapter(m: RequirementMatch): int {
    m.chapter
  }

  /** Number of matches with priority `k`. */
  function CountPriority(ms: seq<RequirementMatch>, k: int): (r: nat)
    ensures r <= |ms|
  {
    if |ms| == 0 then 0
    else (if ms[0].priority == k then 1 else 0) + CountPriority(ms[1..], k)
  }

  /** When every priority is a tier, the three tier counts add up to the total. */
  lemma {:induction false} TierCountsCoverAll(ms: seq<RequirementMatch>)
    requires forall m :: m in ms ==> 1 <= m.priority <= 3
    ensures CountPriority(ms, 1) + CountPriority(ms, 2) + CountPriority(ms, 3) == |ms|
  {
    if |ms| > 0 {
      assert ms[0] in ms;
      assert forall m :: m in ms[1..] ==> m in ms;
      TierCountsCoverAll(ms[1..]);
    }
  }

  datatype Statistics = Statistics(
    total: nat,
    byCategory: seq<Entry<Category>>,
    critical: nat,
    important: nat,
    recommended: nat,
    byChapter: seq<Entry<int>>,
    mostCommon: Category)

  /** `_generate_statistics`: nothing for no matches (the empty dictionary);
      otherwise counters by category and chapter in first-seen order, the
      three tier counts, and the first category with the largest count. */
  function GenerateStatistics(ms: seq<RequirementMatch>): (r: Option<Statistics>)
    ensures r.None? <==> |ms| == 0
    ensures r.Some? ==> r.value.total == |ms|
  {
    if |ms| == 0 then None
    else
      var cats := Map(ms, MatchCategory);
      TallyCounts(cats);
      var byCategory := Tally(cats);
      assert cats[0] in EntryKeys(byCategory);
      var top := byCategory[MaxIndex(byCategory)].key;
      Some(Statistics(|ms|, byCategory, CountPriority(ms, 1), CountPriority(ms, 2), CountPriority(ms, 3),
                      Tally(Map(ms, MatchChapter)), top))
  }

  /** The counters of the statistics are exact: every category and chapter
      counts its matches, keys are distinct, and the counts add up to the
      number of matches. */
  lemma StatisticsCountsAreExact(ms: seq<RequirementMatch>)
    requires |ms| > 0
    ensures var s := GenerateStatistics(ms).value;
            && Total(s.byCategory) == |ms|
            && Total(s.byChapter) == |ms|
            && Distinct(EntryKeys(s.byCategory))
            && Distinct(EntryKeys(s.byChapter))
            && (forall c :: Lookup(s.byCategory, c) == |InCategory(ms, c)|)
            && (forall n :: Lookup(s.byChapter, n) == multiset(Map(ms, MatchChapter))[n])
  {
    TallyCounts(Map(ms, MatchCategory));
    TallyCounts(Map(ms, MatchChapter));
    forall c ensures Lookup(Tally(Map(ms, MatchCategory)), c) == |InCategory(ms, c)| {
      InCategoryCount(ms, c);
    }
  }

  /** The tier counts count the matches of each tier; other priorities are
      not counted, and when there are none the tiers add up to the total. */
  lemma StatisticsTierCounts(ms: seq<RequirementMatch>)
    requires |ms| > 0
    ensures var s := GenerateStatistics(ms).value;
            && s.critical == CountPriority(ms, 1)
            && s.important == CountPriority(ms, 2)
            && s.recommended == CountPriority(ms, 3)
            && ((forall m :: m in ms ==> 1 <= m.priority <= 3) ==> s.critical + s.important + s.recommended == s.total)
  {
    if forall m :: m in ms ==> 1 <= m.priority <= 3 {
      TierCountsCoverAll(ms);
    }
  }

  /** The most common category occurs among the matches, no category occurs
      more often, and every earlier counter is strictly smaller (Python's
      `max` keeps the first maximal item). */
  lemma MostCommonIsFirstMaximal(ms: seq<RequirementMatch>)
    requires |ms| > 0
    ensures var s := GenerateStatistics(ms).value;
            && (exists m :: m in ms && m.category == s.mostCommon)
            && (forall c :: Lookup(s.byCategory, c) <= Lookup(s.byCategory, s.mostCommon))
            && exists i :: && 0 <= i < |s.byCategory| && s.byCategory[i].key == s.mostCommon
                           && (forall j :: 0 <= j < i ==> s.byCategory[j].count < s.byCategory[i].count)
  {
    var s := GenerateStatistics(ms).value;
    var cats := Map(ms, MatchCategory);
    TallyCounts(cats);
    var i := MaxIndex(s.byCategory);
    assert s.byCategory[i].key == s.mostCommon;
    LookupOfDistinct(s.byCategory, i);
    forall c ensures Lookup(s.byCategory, c) <= Lookup(s.byCategory, s.mostCommon) {
      LookupIsSomeCount(s.byCategory, c);
    }
    assert s.mostCommon in EntryKeys(s.byCategory);
    assert s.mostCommon in cats;
    var j :| 0 <= j < |cats| && cats[j] == s.mostCommon;
    assert ms[j] in ms;
  }

  /** In a counter with distinct keys, the entry at index `i` is what its key
      looks up. */
  lemma {:induction false} LookupOfDistinct<K>(entries: seq<Entry<K>>, i: nat)
    requires i < |entries|
    requires Distinct(EntryKeys(entries))
    ensures Lookup(entries, entries[i].key) == entries[i].count
  {
    if i > 0 {
      assert EntryKeys(entries)[0] != EntryKeys(entries)[i];
      assert EntryKeys(entries[1..]) == EntryKeys(entries)[1..];
      LookupOfDistinct(entries[1..], i - 1);
    }
  }

  /** A lookup is zero or the count of some entry. */
  lemma {:induction false} LookupIsSomeCount<K>(entries: seq<Entry<K>>, k: K)
    ensures Lookup(entries, k) == 0 || exists e :: e in entries && e.count == Lookup(entries, k)
  {
    if |entries| > 0 && entries[0].key != k {
      LookupIsSomeCount(entries[1..], k);
      if Lookup(entries, k) != 0 {
        var e :| e in entries[1..] && e.count == Lookup(entries[1..], k);
        assert e in entries;
      }
    }
  }

  /** The two views of the categories agree: each group counts what the
      statistics counter of its category says. */
  lemma GroupCountsAgreeWithStatistics(ms: seq<RequirementMatch>)
    requires |ms| > 0
    ensures forall g :: g in GroupByCategory(ms) ==> g.count == Lookup(GenerateStatistics(ms).value.byCategory, g.category)
  {
    GroupsPartitionMatches(ms);
    StatisticsCountsAreExact(ms);
  }

  /** One line of the key-requirement summary. */
  datatype SummaryItem = SummaryItem(section: string, title: string, firstReason: Option<Reason>)

  function SummaryItemOf(m: RequirementMatch): (r: SummaryItem)
    ensures r.firstReason.Some? <==> |m.reasons| > 0
    ensures r.firstReason.Some? ==> r.firstReason.value == m.reasons[0]
  {
    SummaryItem(m.section, m.title, if |m.reasons| > 0 then Some(m.reasons[0]) else None)
  }

  /** The summary lists the matches of priority at most 2, in order, each with
      its first reason when it has one. */
  function SummaryItems(ms: seq<RequirementMatch>): (r: seq<SummaryItem>)
    ensures |r| == |Filter(ms, IsKey)|
    ensures forall i :: 0 <= i < |r| ==> && r[i].section == Filter(ms, IsKey)[i].section
                                         && r[i].title == Filter(ms, IsKey)[i].title
                                         && (r[i].firstReason.Some? <==> |Filter(ms, IsKey)[i].reasons| > 0)
  {
    Map(Filter(ms, IsKey), SummaryItemOf)
  }

  /** Every key match (priority at most 2) has its line in the summary, and
      every line comes from one. */
  lemma SummaryCoversKeyMatches(ms: seq<RequirementMatch>)
    ensures forall m :: m in ms && m.priority <= 2 ==> SummaryItemOf(m) in SummaryItems(ms)
    ensures forall it :: it in SummaryItems(ms) ==> exists m :: m in ms && m.priority <= 2 && SummaryItemOf(m) == it
  {
    FilterMembers(ms, IsKey);
    MapMembers(Filter(ms, IsKey), SummaryItemOf);
  }

  /** The serialized conflict: all five fields. */
  datatype ConflictRecord = ConflictRecord(
    requirement1Id: string,
    requirement2Id: string,
    conflictType: ConflictType,
    resolution: Resolution,
    preferredId: string)

  function ConflictToRecord(c: RuleConflict): ConflictRecord {
    ConflictRecord(c.requirement1Id, c.requirement2Id, c.conflictType, c.resolution, c.preferredId)
  }

  function RecordToConflict(r: ConflictRecord): RuleConflict {
    RuleConflict(r.requirement1Id, r.requirement2Id, r.conflictType, r.resolution, r.preferredId)
  }

  /** Conflict records pass every field through unchanged. */
  lemma ConflictRecordRoundTrip(c: RuleConflict, r: ConflictRecord)
    ensures RecordToConflict(ConflictToRecord(c)) == c
    ensures ConflictToRecord(RecordToConflict(r)) == r
  {
  }

  /** `MatchedRequirements` without the rendered texts and the timestamp. */
  datatype Formatted = Formatted(
    summary: ProfileSummary,
    requirements: seq<MatchRecord>,
    groups: seq<CategoryGroup>,
    priorityRequirements: seq<MatchRecord>,
    keySummary: seq<SummaryItem>,
    total: nat,
    statistics: Option<Statistics>,
    conflicts: seq<ConflictRecord>)

  /** `format_for_ai`: the conflicts are included only when given and
      non-empty. */
  function FormatForAI(ms: seq<RequirementMatch>, p: BusinessProfile, conflicts: Option<seq<RuleConflict>>): (r: Formatted)
    ensures r.total == |ms|
    ensures |r.requirements| == |ms| && forall i :: 0 <= i < |ms| ==> FromRecord(r.requirements[i]) == ms[i]
    ensures r.summary.featureCount == |p.features|
    ensures conflicts.None? ==> r.conflicts == []
    ensures conflicts.Some? ==> |r.conflicts| == |conflicts.value|
                                && forall i :: 0 <= i < |r.conflicts| ==> RecordToConflict(r.conflicts[i]) == conflicts.value[i]
  {
    Formatted(
      SummaryOf(p),
      Map(ms, ToRecord),
      GroupByCategory(ms),
      Map(CriticalMatches(ms), ToRecord),
      SummaryItems(ms),
      |ms|,
      GenerateStatistics(ms),
      match conflicts
      case None => []
      case Some(cs) => Map(cs, ConflictToRecord))
  }

  /** The conflicts of a formatted result are the records of the supplied ones. */
  lemma FormattedConflicts(ms: seq<RequirementMatch>, p: BusinessProfile, cs: seq<RuleConflict>)
    ensures FormatForAI(ms, p, Some(cs)).conflicts == Map(cs, ConflictToRecord)
  {
  }

  /** The records of a log extended by later conflicts start with the
      records of the earlier log, which read back unchanged. */
  lemma ConflictRecordsPrefix(earlier: seq<RuleConflict>, later: seq<RuleConflict>)
    ensures |Map(earlier + later, ConflictToRecord)| == |earlier| + |later|
    ensures forall i :: 0 <= i < |earlier| ==> RecordToConflict(Map(earlier + later, ConflictToRecord)[i]) == earlier[i]
  {
    var all := earlier + later;
    var cs := Map(all, ConflictToRecord);
    forall i | 0 <= i < |earlier|
      ensures RecordToConflict(cs[i]) == earlier[i]
    {
      assert cs[i] == ConflictToRecord(all[i]) && all[i] == earlier[i];
      ConflictRecordRoundTrip(all[i], cs[i]);
    }
  }

  /** The priority requirements are the records of exactly the priority-1
      matches, as many as there are. */
  lemma PriorityRequirementsAreCritical(ms: seq<RequirementMatch>, p: BusinessProfile, conflicts: Option<seq<RuleConflict>>)
    ensures var r := FormatForAI(ms, p, conflicts);
            && (forall x :: x in r.priorityRequirements <==> exists m :: m in ms && m.priority == 1 && x == ToRecord(m))
            && |r.priorityRequirements| == CountPriority(ms, 1)
  {
    MapMembers(CriticalMatches(ms), ToRecord);
    CriticalCount(ms);
  }

  /** The priority-1 filter keeps as many matches as the tier count. */
  lemma {:induction false} CriticalCount(ms: seq<RequirementMatch>)
    ensures |CriticalMatches(ms)| == CountPriority(ms, 1)
  {
    if |ms| > 0 {
      CriticalCount(ms[1..]);
      assert ms == [ms[0]] + ms[1..];
      FilterCons(ms[0], ms[1..], IsCritical);
    }
  }

  /** A category line of the prompt context. */
  datatype PromptCategory = PromptCategory(category: Category, count: nat)

  function PromptCategoryOf(g: CategoryGroup): PromptCategory {
    PromptCategory(g.category, g.count)
  }

  function IsImportantGroup(g: CategoryGroup): bool {
    g.priority <= 2
  }

  /** The important categories: groups of priority at most 2, in group order. */
  function PromptCategories(groups: seq<CategoryGroup>): (r: seq<PromptCategory>)
    ensures forall pc :: pc in r <==> exists g :: g in groups && g.priority <= 2 && pc == PromptCategoryOf(g)
  {
    FilterMembers(groups, IsImportantGroup);
    MapMembers(Filter(groups, IsImportantGroup), PromptCategoryOf);
    Map(Filter(groups, IsImportantGroup), PromptCategoryOf)
  }

  /** The structural content of the prompt context. */
  datatype PromptContext = PromptContext(
    categories: seq<PromptCategory>,
    total: nat,
    critical: nat,
    important: nat)

  /** Why the prompt context cannot be built: the statistics lack the
      priority counts (a `KeyError` in the source). */
  datatype PromptError = MissingPriorityCounts

  /** `create_ai_prompt_context` as written: it reads the priority counts out
      of the statistics, which are empty when there are no matches. */
  function PromptContextAsWritten(f: Formatted): (r: Result<PromptContext, PromptError>)
    ensures r.Failure? <==> f.statistics.None?
  {
    match f.statistics
    case None => Failure(MissingPriorityCounts)
    case Some(s) => Success(PromptContext(PromptCategories(f.groups), f.total, s.critical, s.important))
  }

  /** As written, formatting an empty match list and then building the prompt
      context fails, whatever the profile and conflicts. */
  lemma EmptyMatchesBreakPromptContext(p: BusinessProfile, conflicts: Option<seq<RuleConflict>>)
    ensures PromptContextAsWritten(FormatForAI([], p, conflicts)) == Failure(MissingPriorityCounts)
  {
  }

  /** The prompt context with absent priority counts read as zero. */
  function CreatePromptContext(f: Formatted): (r: PromptContext)
    ensures forall pc :: pc in r.categories <==> exists g :: g in f.groups && g.priority <= 2 && pc == PromptCategoryOf(g)
    ensures r.total == f.total
    ensures f.statistics.None? ==> r.critical == 0 && r.important == 0
    ensures PromptContextAsWritten(f).Success? ==> PromptContextAsWritten(f).value == r
  {
    match f.statistics
    case None => PromptContext(PromptCategories(f.groups), f.total, 0, 0)
    case Some(s) => PromptContext(PromptCategories(f.groups), f.total, s.critical, s.important)
  }

  /** With the correction, the prompt context of any formatted match list
      exists and reports exactly the numbers of priority-1 and priority-2
      matches, including for an empty list. */
  lemma PromptContextCountsMatches(ms: seq<RequirementMatch>, p: BusinessProfile, conflicts: Option<seq<RuleConflict>>)
    ensures CreatePromptContext(FormatForAI(ms, p, conflicts)).critical == CountPriority(ms, 1)
    ensures CreatePromptContext(FormatForAI(ms, p, conflicts)).important == CountPriority(ms, 2)
    ensures CreatePromptContext(FormatForAI(ms, p, conflicts)).total == |ms|
  {
  }
}

=== FILE: ordering.dfy ===
/** The orderings the source sorts by: Python's code-point comparison of
    strings, a three-part sort key, and Python's stable `list.sort` with a key
    function. */
module Ordering {

  import opened Seqs

  /** `a <= b` on Python strings: code-point lexicographic order, where a
      proper prefix sorts first. */
  predicate StrLe(a: string, b: string) {
    if |a| == 0 then true
    else if |b| == 0 then false
    else if a[0] != b[0] then a[0] < b[0]
    else StrLe(a[1..], b[1..])
  }

  lemma {:induction false} StrLeReflexive(a: string)
    ensures StrLe(a, a)
  {
    if |a| > 0 {
      StrLeReflexive(a[1..]);
    }
  }

  lemma {:induction false} StrLeTotal(a: string, b: string)
    ensures StrLe(a, b) || StrLe(b, a)
  {
    if |a| > 0 && |b| > 0 && a[0] == b[0] {
      StrLeTotal(a[1..], b[1..]);
    }
  }

  lemma {:induction false} StrLeAntisymmetric(a: string, b: string)
    requires StrLe(a, b) && StrLe(b, a)
    ensures a == b
  {
    if |a| > 0 && |b| > 0 {
      StrLeAntisymmetric(a[1..], b[1..]);
      assert a == [a[0]] + a[1..];
      assert b == [b[0]] + b[1..];
    }
  }

  lemma {:induction false} StrLeTransitive(a: string, b: string, c: string)
    requires StrLe(a, b) && StrLe(b, c)
    ensures StrLe(a, c)
  {
    if |a| > 0 && |b| > 0 && |c| > 0 && a[0] == b[0] && b[0] == c[0] {
      StrLeTransitive(a[1..], b[1..], c[1..]);
    }
  }

  /** A prefix never sorts after the string it starts ("5.1" before "5.1.2"). */
  lemma {:induction false} PrefixStrLe(a: string, b: string)
    requires a <= b
    ensures StrLe(a, b)
  {
    if |a| > 0 {
      PrefixStrLe(a[1..], b[1..]);
    }
  }

  /** A sort key of the shape `(int, int, str)`, compared as a Python tuple. */
  datatype SortKey = SortKey(major: int, minor: int, text: string)

  /** Python tuple comparison `k1 <= k2`. */
  predicate KeyLe(k1: SortKey, k2: SortKey) {
    || k1.major < k2.major
    || (k1.major == k2.major && k1.minor < k2.minor)
    || (k1.major == k2.major && k1.minor == k2.minor && StrLe(k1.text, k2.text))
  }

  lemma KeyLeTotal(k1: SortKey, k2: SortKey)
    ensures KeyLe(k1, k2) || KeyLe(k2, k1)
  {
    StrLeTotal(k1.text, k2.text);
  }

  lemma KeyLeTransitive(k1: SortKey, k2: SortKey, k3: SortKey)
    requires KeyLe(k1, k2) && KeyLe(k2, k3)
    ensures KeyLe(k1, k3)
  {
    if k1.major == k2.major == k3.major && k1.minor == k2.minor == k3.minor {
      StrLeTransitive(k1.text, k2.text, k3.text);
    }
  }

  lemma KeyLeAntisymmetric(k1: SortKey, k2: SortKey)
    requires KeyLe(k1, k2) && KeyLe(k2, k1)
    ensures k1 == k2
  {
    StrLeAntisymmetric(k1.text, k2.text);
  }

  /** Every earlier element's key is at most every later element's key. */
  ghost predicate SortedBy<T>(xs: seq<T>, key: T -> SortKey) {
    forall i, j :: 0 <= i < j < |xs| ==> KeyLe(key(xs[i]), key(xs[j]))
  }

  /** Inserts `x` before the first element whose key is not smaller, so that
      `x` lands ahead of every element with an equal key. */
  function Insert<T>(x: T, xs: seq<T>, key: T -> SortKey): (r: seq<T>)
    requires SortedBy(xs, key)
    ensures SortedBy(r, key)
    ensures multiset(r) == multiset(xs) + multiset{x}
  {
    if |xs| == 0 then [x]
    else if KeyLe(key(x), key(xs[0])) then
      assert forall j :: 0 <= j < |xs| ==> KeyLe(key(x), key(xs[j])) by {
        forall j | 0 <= j < |xs|
          ensures KeyLe(key(x), key(xs[j]))
        {
          if j > 0 {
            KeyLeTransitive(key(x), key(xs[0]), key(xs[j]));
          }
        }
      }
      [x] + xs
    else
      var rest := Insert(x, xs[1..], key);
      KeyLeTotal(key(x), key(xs[0]));
      assert xs == [xs[0]] + xs[1..];
      assert forall j :: 0 <= j < |rest| ==> KeyLe(key(xs[0]), key(rest[j])) by {
        forall j | 0 <= j < |rest|
          ensures KeyLe(key(xs[0]), key(rest[j]))
        {
          assert rest[j] in multiset(rest);
          assert rest[j] == x || rest[j] in xs[1..];
        }
      }
      [xs[0]] + rest
  }

  /** Python's stable `sorted(xs, key=key)`: an insertion sort working from the
      back, so an element inserted later (earlier in `xs`) precedes equal keys. */
  function SortBy<T>(xs: seq<T>, key: T -> SortKey): (r: seq<T>)
    ensures SortedBy(r, key)
    ensures multiset(r) == multiset(xs)
    ensures |r| == |xs|
  {
    if |xs| == 0 then []
    else
      assert xs == [xs[0]] + xs[1..];
      Insert(xs[0], SortBy(xs[1..], key), key)
  }

  /** The elements of `xs` whose key is `k`, in order. */
  function WithKey<T>(xs: seq<T>, key: T -> SortKey, k: SortKey): seq<T> {
    if |xs| == 0 then []
    else (if key(xs[0]) == k then [xs[0]] else []) + WithKey(xs[1..], key, k)
  }

  /** `WithKey` on a sequence with a known first element. */
  lemma WithKeyCons<T>(y: T, ys: seq<T>, key: T -> SortKey, k: SortKey)
    ensures WithKey([y] + ys, key, k) == (if key(y) == k then [y] else []) + WithKey(ys, key, k)
  {
    assert ([y] + ys)[1..] == ys;
  }

  /** The tail of a sorted sequence is sorted. */
  lemma SortedTail<T>(xs: seq<T>, key: T -> SortKey)
    requires |xs| > 0 && SortedBy(xs, key)
    ensures SortedBy(xs[1..], key)
  {
    forall i, j | 0 <= i < j < |xs| - 1
      ensures KeyLe(key(xs[1..][i]), key(xs[1..][j]))
    {
      assert xs[1..][i] == xs[i + 1] && xs[1..][j] == xs[j + 1];
    }
  }

  lemma {:induction false} InsertWithKey<T>(x: T, xs: seq<T>, key: T -> SortKey, k: SortKey)
    requires SortedBy(xs, key)
    ensures WithKey(Insert(x, xs, key), key, k)
            == (if key(x) == k then [x] else []) + WithKey(xs, key, k)
  {
    if |xs| == 0 {
      WithKeyCons(x, [], key, k);
    } else if KeyLe(key(x), key(xs[0])) {
      assert Insert(x, xs, key) == [x] + xs;
      WithKeyCons(x, xs, key, k);
    } else {
      // x moves past xs[0] only when their keys differ
      StrLeReflexive(key(x).text);
      assert key(x) != key(xs[0]);
      SortedTail(xs, key);
      var rest := Insert(x, xs[1..], key);
      assert Insert(x, xs, key) == [xs[0]] + rest;
      WithKeyCons(xs[0], rest, key, k);
      assert xs == [xs[0]] + xs[1..];
      WithKeyCons(xs[0], xs[1..], key, k);
      InsertWithKey(x, xs[1..], key, k);
    }
  }

  /** Stability: sorting never reorders elements whose keys are equal. */
  lemma {:induction false} SortByStable<T>(xs: seq<T>, key: T -> SortKey, k: SortKey)
    ensures WithKey(SortBy(xs, key), key, k) == WithKey(xs, key, k)
  {
    if |xs| > 0 {
      SortByStable(xs[1..], key, k);
      InsertWithKey(xs[0], SortBy(xs[1..], key), key, k);
    }
  }

  /** Sorting an already sorted sequence leaves it as it is. */
  lemma {:induction false} SortBySortedIsIdentity<T>(xs: seq<T>, key: T -> SortKey)
    requires SortedBy(xs, key)
    ensures SortBy(xs, key) == xs
  {
    if |xs| > 0 {
      SortBySortedIsIdentity(xs[1..], key);
      StrLeReflexive(key(xs[0]).text);
      if |xs| > 1 {
        assert KeyLe(key(xs[0]), key(xs[1..][0]));
      }
    }
  }

  /** Inserting an element whose key is new keeps the keys distinct. */
  lemma {:induction false} InsertKeepsDistinctKeys<T, K>(x: T, xs: seq<T>, sortKey: T -> SortKey, key: T -> K)
    requires SortedBy(xs, sortKey)
    requires DistinctKeys(xs, key)
    requires forall y :: y in xs ==> key(y) != key(x)
    ensures DistinctKeys(Insert(x, xs, sortKey), key)
  {
    if |xs| == 0 {
    } else if KeyLe(sortKey(x), sortKey(xs[0])) {
      assert Insert(x, xs, sortKey) == [x] + xs;
      DistinctKeysCons(x, xs, key);
    } else {
      var rest := Insert(x, xs[1..], sortKey);
      assert Insert(x, xs, sortKey) == [xs[0]] + rest;
      assert DistinctKeys(xs[1..], key) by {
        forall i, j | 0 <= i < j < |xs[1..]|
          ensures key(xs[1..][i]) != key(xs[1..][j])
        {
          assert xs[1..][i] == xs[i + 1] && xs[1..][j] == xs[j + 1];
        }
      }
      SortedTail(xs, sortKey);
      InsertKeepsDistinctKeys(x, xs[1..], sortKey, key);
      forall y | y in rest
        ensures key(y) != key(xs[0])
      {
        assert y in multiset(rest);
        if y != x {
          assert y in xs[1..];
          var j :| 0 <= j < |xs[1..]| && xs[1..][j] == y;
          assert xs[j + 1] == y;
        }
      }
      DistinctKeysCons(xs[0], rest, key);
    }
  }

  /** Sorting never makes two elements share a key. */
  lemma {:induction false} SortByKeepsDistinctKeys<T, K>(xs: seq<T>, sortKey: T -> SortKey, key: T -> K)
    requires DistinctKeys(xs, key)
    ensures DistinctKeys(SortBy(xs, sortKey), key)
  {
    if |xs| > 0 {
      var ys := SortBy(xs[1..], sortKey);
      SortByKeepsDistinctKeys(xs[1..], sortKey, key);
      forall y | y in ys
        ensures key(y) != key(xs[0])
      {
        assert y in multiset(ys);
        assert y in xs[1..];
        var j :| 0 <= j < |xs[1..]| && xs[1..][j] == y;
        assert xs[j + 1] == y;
      }
      InsertKeepsDistinctKeys(xs[0], ys, sortKey, key);
    }
  }
}

=== FILE: pipeline.dfy ===
/** The request flows that tie the stages together: a questionnaire or a
    sample profile is matched, processed by the rules, reported and formatted,
    and the conflict log is reset for the next request; the prompt-context
    flow adds the prompt context. On the agent side, the conversation's
    profile dictionary is what the condition evaluator reads. */
module Pipeline {

  import opened Wrappers
  import opened Seqs
  import opened Ordering
  import opened Profile
  import opened Engine
  import opened Rules
  import opened Formatter
  import opened Conditions
  import opened Profiler

  /** The formatted answer and the rule session left for the next request. */
  datatype Response = Response(result: Formatted, session: RuleSession)

  /** The matches one request reports: one per id that survives the boundary
      and chapter stages, each from a catalog entry whose size and capacity
      gates pass; with a single chapter matched, every matched id is reported. */
  function ProcessedMatches(p: BusinessProfile, catalog: seq<Requirement>, s: RuleSession): (r: seq<RequirementMatch>)
    ensures |r| <= |catalog|
    ensures SortedBy(r, MatchKey)
    ensures DistinctKeys(r, MatchId)
    ensures KeysOf(r, MatchId)
            == KeysOf(Reconcile(HandleBoundary(MatchRequirements(catalog, p, SourcePolicy), p), p).matches, MatchId)
    ensures !BothChapters(MatchRequirements(catalog, p, SourcePolicy))
            ==> KeysOf(r, MatchId) == KeysOf(MatchRequirements(catalog, p, SourcePolicy), MatchId)
    ensures forall m :: m in r ==> exists req :: && req in catalog && req.id == m.id && req.chapter == m.chapter
                                                 && SizeGate(req, p) && CapacityGate(req, p)
  {
    var raw := MatchRequirements(catalog, p, SourcePolicy);
    var r := Process(s, raw, p).matches;
    forall m | m in r
      ensures exists req :: && req in catalog && req.id == m.id && req.chapter == m.chapter
                            && SizeGate(req, p) && CapacityGate(req, p)
    {
      var m0 :| m0 in raw && m0.id == m.id && m0.chapter == m.chapter;
      var req :| req in catalog && EvaluateRequirement(req, p, SourcePolicy) == Some(m0) && SizeGate(req, p) && CapacityGate(req, p);
    }
    r
  }

  /** The conflicts one request logs. */
  function RequestConflicts(p: BusinessProfile, catalog: seq<Requirement>): seq<RuleConflict> {
    Reconcile(HandleBoundary(MatchRequirements(catalog, p, SourcePolicy), p), p).conflicts
  }

  /** One request for a profile: match, process, read the conflict report,
      format, reset. The session is left empty. */
  function HandleProfile(p: BusinessProfile, catalog: seq<Requirement>, s: RuleSession): (r: Response)
    ensures ConflictReport(r.session) == []
    ensures r.result.total == |ProcessedMatches(p, catalog, s)| <= |catalog|
  {
    var processed := Process(s, MatchRequirements(catalog, p, SourcePolicy), p);
    Response(FormatForAI(processed.matches, p, Some(ConflictReport(processed.session))), Reset(processed.session))
  }

  /** The conflicts a request returns are the records of the session's
      earlier conflicts followed by this request's. */
  lemma ReportedConflicts(p: BusinessProfile, catalog: seq<Requirement>, s: RuleSession)
    ensures HandleProfile(p, catalog, s).result.conflicts
            == Map(s.conflicts + RequestConflicts(p, catalog), ConflictToRecord)
  {
    var raw := MatchRequirements(catalog, p, SourcePolicy);
    var processed := Process(s, raw, p);
    var all := s.conflicts + RequestConflicts(p, catalog);
    ProcessLog(s, raw, p);
    assert HandleProfile(p, catalog, s).result == FormatForAI(processed.matches, p, Some(all));
    FormattedConflicts(processed.matches, p, all);
  }

  /** The report a request returns holds the session's earlier conflicts
      followed by this request's. */
  lemma HandleProfileReport(p: BusinessProfile, catalog: seq<Requirement>, s: RuleSession)
    ensures |HandleProfile(p, catalog, s).result.conflicts| == |s.conflicts| + |RequestConflicts(p, catalog)|
    ensures forall i :: 0 <= i < |s.conflicts| ==> RecordToConflict(HandleProfile(p, catalog, s).result.conflicts[i]) == s.conflicts[i]
  {
    ReportedConflicts(p, catalog, s);
    ConflictRecordsPrefix(s.conflicts, RequestConflicts(p, catalog));
  }

  /** A boundary profile on a fresh session reports no conflicts. */
  lemma BoundaryRequestReportsNothing(p: BusinessProfile, catalog: seq<Requirement>)
    requires BoundaryFires(p)
    ensures HandleProfile(p, catalog, RuleSession([])).result.conflicts == []
  {
    var raw := MatchRequirements(catalog, p, SourcePolicy);
    var processed := Process(RuleSession([]), raw, p);
    BoundaryThenReconcileIsQuiet(raw, p);
    ProcessLog(RuleSession([]), raw, p);
    assert HandleProfile(p, catalog, RuleSession([])).result == FormatForAI(processed.matches, p, Some([]));
  }

  /** Because every request ends with a reset, a request answers the same
      whatever request came before it. */
  lemma RequestsAreIndependent(p1: BusinessProfile, p2: BusinessProfile, catalog: seq<Requirement>, s: RuleSession)
    ensures HandleProfile(p2, catalog, HandleProfile(p1, catalog, s).session)
            == HandleProfile(p2, catalog, RuleSession([]))
  {
  }

  /** The questionnaire flow: an invalid questionnaire is rejected before
      matching; a valid one is handled as its profile. */
  function HandleQuestionnaire(q: QuestionnaireResponse, catalog: seq<Requirement>, s: RuleSession): (r: Result<Response, seq<ProfileError>>)
    ensures r.Failure? <==> !(0 < q.size <= SizeReasonableMax && 0 < q.seating <= CapacityMax)
    ensures r.Success? ==> ConflictReport(r.value.session) == []
    ensures r.Success? ==> r.value.result.summary.featureCount == |CheckboxFeatures(q)|
    ensures r.Success? ==> r.value.result.total <= |catalog|
  {
    match ToBusinessProfile(q)
    case Failure(errors) => Failure(errors)
    case Success(p) => Success(HandleProfile(p, catalog, s))
  }

  /** The prompt-context flow as written. */
  function PromptEndpointAsWritten(p: BusinessProfile, catalog: seq<Requirement>, s: RuleSession): (r: Result<PromptContext, PromptError>)
    ensures r.Failure? <==> ProcessedMatches(p, catalog, s) == []
  {
    PromptContextAsWritten(HandleProfile(p, catalog, s).result)
  }

  /** As written, the prompt-context flow fails for every profile when the
      catalog is empty. */
  lemma EmptyCatalogBreaksPromptEndpoint(p: BusinessProfile, s: RuleSession)
    ensures PromptEndpointAsWritten(p, [], s) == Failure(MissingPriorityCounts)
  {
  }

  /** The prompt-context flow with the correction: always answers, and its
      counts are those of the reported matches. */
  function PromptEndpoint(p: BusinessProfile, catalog: seq<Requirement>, s: RuleSession): (r: PromptContext)
    ensures r.total == |ProcessedMatches(p, catalog, s)|
    ensures r.critical == CountPriority(ProcessedMatches(p, catalog, s), 1)
    ensures r.important == CountPriority(ProcessedMatches(p, catalog, s), 2)
    ensures PromptEndpointAsWritten(p, catalog, s).Success? ==> PromptEndpointAsWritten(p, catalog, s).value == r
  {
    var ms := ProcessedMatches(p, catalog, s);
    PromptContextCountsMatches(ms, p, Some(ConflictReport(Process(s, MatchRequirements(catalog, p, SourcePolicy), p).session)));
    CreatePromptContext(HandleProfile(p, catalog, s).result)
  }

  /** The small-business catalog entries of the matching tests: chapter 5
      extinguishers, chapter 6 hose reel, chapter 6 gas system. */
  const Extinguishers := Requirement("CHAPTER_5_SECTION_5_5_1", 5, "5.5.1", Some(FireEquipment), "", "",
                                     Bounds(Some(0), Some(150)), Bounds(Some(0), Some(50)), [])
  const HoseReel := Requirement("CHAPTER_6_SECTION_6_13_1", 6, "6.13.1", Some(FireEquipment), "", "",
                                Bounds(Some(120), Some(300)), Bounds(Some(51), Some(200)), [])
  const GasSystem := Requirement("CHAPTER_6_SECTION_6_23_1", 6, "6.23.1", Some(Gas), "", "",
                                 Bounds(Some(0), Some(9999)), Bounds(Some(0), Some(9999)), ["gas_usage"])
  const TestCatalog := [Extinguishers, HoseReel, GasSystem]

  /** An 80 m², 30-person business without special features. */
  const SmallBusiness := BusinessProfile(80, 30, [], DefaultBusinessType, None, None)

  /** One step of `Candidates`: the first entry's match, then the rest's. */
  lemma CandidatesCons(catalog: seq<Requirement>, p: BusinessProfile, policy: FeatureGatePolicy)
    requires |catalog| > 0
    ensures Candidates(catalog, p, policy)
            == EvaluateRequirement(catalog[0], p, policy).ToSeq() + Candidates(catalog[1..], p, policy)
  {
  }

  /** The candidates of a three-entry catalog, entry by entry. */
  lemma CandidatesOfThree(catalog: seq<Requirement>, p: BusinessProfile, policy: FeatureGatePolicy)
    requires |catalog| == 3
    ensures Candidates(catalog, p, policy)
            == EvaluateRequirement(catalog[0], p, policy).ToSeq() + EvaluateRequirement(catalog[1], p, policy).ToSeq()
               + EvaluateRequirement(catalog[2], p, policy).ToSeq()
  {
    var tail := catalog[1..];
    var last := tail[1..];
    CandidatesCons(last, p, policy);
    assert last[1..] == [] && last[0] == catalog[2];
    CandidatesCons(tail, p, policy);
    assert tail[0] == catalog[1];
    CandidatesCons(catalog, p, policy);
  }

  /** How each test-catalog entry fares for the small business: the hose reel
      is out of range, the extinguishers apply, and the gas system passes the
      range gates but not the feature gate. */
  lemma SmallBusinessEvaluations(policy: FeatureGatePolicy)
    ensures EvaluateRequirement(HoseReel, SmallBusiness, policy).None?
    ensures EvaluateRequirement(Extinguishers, SmallBusiness, policy).Some?
    ensures EvaluateRequirement(Extinguishers, SmallBusiness, policy).value.chapter == 5
    ensures EvaluateRequirement(GasSystem, SmallBusiness, policy).Some? <==> policy == ReasonOnly
    ensures EvaluateRequirement(GasSystem, SmallBusiness, policy).Some?
            ==> EvaluateRequirement(GasSystem, SmallBusiness, policy).value.category == Gas
  {
    assert !CheckRange(Area, HoseReel.sizeRange, SmallBusiness.size).matches;
    assert !CheckFeatures(GasSystem.features, SmallBusiness.features).matches;
  }

  /** As written, the small business also matches the gas system, which
      requires gas usage it does not have: two matches where the test expects
      the extinguishers alone. */
  lemma SmallBusinessMatchesGasAsWritten()
    ensures |MatchRequirements(TestCatalog, SmallBusiness, SourcePolicy)| == 2
    ensures exists m :: m in MatchRequirements(TestCatalog, SmallBusiness, SourcePolicy) && m.category == Gas
  {
    SmallBusinessEvaluations(SourcePolicy);
    var ext := EvaluateRequirement(Extinguishers, SmallBusiness, SourcePolicy).value;
    var gas := EvaluateRequirement(GasSystem, SmallBusiness, SourcePolicy).value;
    assert Candidates(TestCatalog, SmallBusiness, SourcePolicy) == [ext, gas] by {
      CandidatesOfThree(TestCatalog, SmallBusiness, SourcePolicy);
    }
    var r := MatchRequirements(TestCatalog, SmallBusiness, SourcePolicy);
    assert multiset(r) == multiset([ext, gas]);
    assert gas in multiset(r);
  }

  /** With the feature gate enforced, the small business matches exactly the
      chapter 5 extinguishers, as the test expects. */
  lemma SmallBusinessMatchesExtinguishersWhenEnforced()
    ensures MatchRequirements(TestCatalog, SmallBusiness, Enforced) == [EvaluateRequirement(Extinguishers, SmallBusiness, Enforced).value]
    ensures EvaluateRequirement(Extinguishers, SmallBusiness, Enforced).value.chapter == 5
  {
    SmallBusinessEvaluations(Enforced);
    var ext := EvaluateRequirement(Extinguishers, SmallBusiness, Enforced).value;
    assert Candidates(TestCatalog, SmallBusiness, Enforced) == [ext] by {
      CandidatesOfThree(TestCatalog, SmallBusiness, Enforced);
    }
    var r := MatchRequirements(TestCatalog, SmallBusiness, Enforced);
    assert multiset(r) == multiset{ext};
    assert |r| == 1;
    assert r[0] in multiset(r);
  }

  /** The rule-processing tests: a chapter 6 signage match at priority 3, and
      a chapter 6 gas match at priority 2, each processed alone. */
  const ExitSigns := RequirementMatch("REQ_1", 6, "6.1.1", Signage, "", "", [Note("business size")], 3)
  const GasMatch := RequirementMatch("GAS_REQ_1", 6, "6.23.1", Gas, "", "", [Note("gas usage")], 2)

  /** A 300 m², 150-person restaurant using gas, delivering and serving alcohol. */
  const ComplexRestaurant := BusinessProfile(300, 150, [GasUsage, Delivery, Alcohol], DefaultBusinessType, None, None)

  /** A 150 m², 60-person restaurant using gas. */
  const GasRestaurant := BusinessProfile(150, 60, [GasUsage], DefaultBusinessType, None, None)

  /** A single match of one chapter passes the boundary and chapter stages
      untouched, and processing reports exactly its rule-adjusted version. */
  lemma ProcessSingleMatch(m: RequirementMatch, p: BusinessProfile)
    ensures Process(RuleSession([]), [m], p).matches == ApplyFeatureRules([m], p)
  {
    var ms := [m];
    assert !BothChapters(ms) by {
      HasChapterIff(ms, SmallChapter);
      HasChapterIff(ms, LargeChapter);
    }
    var refined := ApplyFeatureRules(ms, p);
    assert Refine(ms, p) == refined;
    var r := Process(RuleSession([]), ms, p).matches;
    assert r == Prioritize(refined);
    assert KeysOf(r, MatchId) == {m.id} by {
      assert KeysOf(ms, MatchId) == {m.id};
    }
    assert m.id in KeysOf(r, MatchId);
    assert |r| == 1;
    assert r[0] in r;
    assert r == refined;
  }

  /** The complex-business test: the priority-3 signage match comes out at
      priority 2 with the complexity reason, and with the delivery reason. */
  lemma ComplexSignageIsEscalated()
    ensures var r := Process(RuleSession([]), [ExitSigns], ComplexRestaurant).matches;
            && |r| == 1
            && r[0].id == ExitSigns.id
            && r[0].priority == 2
            && ComplexBusiness in r[0].reasons
            && DeliveryService in r[0].reasons
  {
    ProcessSingleMatch(ExitSigns, ComplexRestaurant);
  }

  /** The gas-usage test: the priority-2 gas match comes out at priority 1. */
  lemma GasMatchIsElevated()
    ensures var r := Process(RuleSession([]), [GasMatch], GasRestaurant).matches;
            && |r| == 1
            && r[0].id == GasMatch.id
            && r[0].priority == 1
  {
    ProcessSingleMatch(GasMatch, GasRestaurant);
  }

  /** The attribute name of a profile-dictionary key. */
  function KeyName(k: ProfileKey): string {
    match k
    case SeatingKey => "seating_capacity"
    case SizeKey => "size_sqm"
    case TypeKey => "business_type"
    case FloorsKey => "floors"
    case KitchenKey => "has_kitchen"
    case StorageKey => "has_storage"
    case OutdoorKey => "has_outdoor_seating"
  }

  /** A dictionary value as the comparisons see it: numbers as they are and
      flags as 0 or 1; text is not comparable with a number. */
  function NumberOf(v: FieldValue): Option<int> {
    match v
    case IntValue(i) => Some(i)
    case BoolValue(b) => Some(if b then 1 else 0)
    case TextValue(_) => None
  }

  /** The numeric attributes of a profile dictionary, by attribute name. */
  function AttributesOf(d: map<ProfileKey, FieldValue>): (r: Attributes)
    ensures forall k :: k in d && NumberOf(d[k]).Some? ==> KeyName(k) in r && r[KeyName(k)] == NumberOf(d[k]).value
    ensures forall k :: KeyName(k) in r ==> k in d
  {
    assert forall k, l :: KeyName(k) == KeyName(l) ==> k == l;
    map k | k in d && NumberOf(d[k]).Some? :: KeyName(k) := NumberOf(d[k]).value
  }

  /** What the conversation's profile lets the condition evaluator see. */
  function ConversationAttributes(info: BusinessInfo): (r: Attributes)
    ensures "seating_capacity" in r <==> info.seatingCapacity.Some?
    ensures "size_sqm" in r <==> info.sizeSqm.Some?
    ensures info.seatingCapacity.Some? ==> r["seating_capacity"] == info.seatingCapacity.value
    ensures info.sizeSqm.Some? ==> r["size_sqm"] == info.sizeSqm.value
  {
    AttributesOf(ProfileDict(info))
  }

  /** While the conversation has not learnt a field, no condition on it holds,
      so a chunk conditioned on it is not applicable; once learnt, the
      condition compares the learnt value. */
  lemma UnknownFieldsBlockConditions(info: BusinessInfo, op: Operator, v: int, chunk: RegulationChunk)
    requires chunk.conditions == [Single(Condition(Some("seating_capacity"), op, v))]
    ensures info.seatingCapacity.None? ==> Compliant([chunk], ConversationAttributes(info)) == []
    ensures info.seatingCapacity.Some? && op == LessOrEqual
            ==> (Compliant([chunk], ConversationAttributes(info)) == [chunk] <==> info.seatingCapacity.value <= v)
  {
    var attrs := ConversationAttributes(info);
    assert Compliant([chunk], attrs) == Compliant([], attrs) + (if AllHold(chunk.conditions, attrs) then [chunk] else []);
    assert AllHold(chunk.conditions, attrs) <==> ClauseHolds(chunk.conditions[0], attrs);
  }
}

=== FILE: profile.dfy ===
/** The business profile: special features, the validated profile record, the
    questionnaire conversion and the summary buckets. */
module Profile {

  import opened Wrappers
  import opened Seqs

  /** The special features a business may declare. */
  datatype Feature = GasUsage | Delivery | Alcohol | Meat

  /** The wire name of a feature, as the catalog spells it. */
  function FeatureName(f: Feature): string {
    match f
    case GasUsage => "gas_usage"
    case Delivery => "delivery"
    case Alcohol => "alcohol"
    case Meat => "meat"
  }

  /** Parses a wire name back into a feature; any other text is not a feature. */
  function ParseFeature(s: string): (r: Option<Feature>)
    ensures r.Some? ==> FeatureName(r.value) == s
  {
    if s == "gas_usage" then Some(GasUsage)
    else if s == "delivery" then Some(Delivery)
    else if s == "alcohol" then Some(Alcohol)
    else if s == "meat" then Some(Meat)
    else None
  }

  /** Feature names and parsing are inverse; in particular names are distinct. */
  lemma FeatureNameRoundTrip(f: Feature, s: string)
    ensures ParseFeature(FeatureName(f)) == Some(f)
    ensures ParseFeature(s) == Some(f) <==> FeatureName(f) == s
  {
  }

  /** Upper bound of the size field itself. */
  const SizeFieldMax := 10000
  /** The stricter bound the size validator enforces. */
  const SizeReasonableMax := 5000
  /** Upper bound of the capacity field. */
  const CapacityMax := 5000
  /** Business type when none is given. */
  const DefaultBusinessType := "restaurant"

  datatype BusinessProfile = BusinessProfile(
    size: int,
    capacity: int,
    features: seq<Feature>,
    businessType: string,
    name: Option<string>,
    info: Option<string>)

  /** One validation failure, reported per field. */
  datatype ProfileError =
    | SizeNotPositive
    | SizeAboveFieldMax
    | SizeUnreasonable
    | CapacityNotPositive
    | CapacityAboveMax
    | DuplicateFeatures

  /** The invariant every constructed profile satisfies. */
  ghost predicate ValidProfile(p: BusinessProfile) {
    && 0 < p.size <= SizeReasonableMax
    && 0 < p.capacity <= CapacityMax
    && Distinct(p.features)
  }

  /** The uniqueness test as the validator phrases it: the list is as long as
      its set of elements. */
  predicate SameSizeAsSet(fs: seq<Feature>) {
    |set f | f in fs| == |fs|
  }

  /** The validator's cardinality test is exactly pairwise distinctness. */
  lemma {:induction false} SameSizeAsSetIffDistinct(fs: seq<Feature>)
    ensures SameSizeAsSet(fs) <==> Distinct(fs)
  {
    if |fs| == 0 {
      assert (set f | f in fs) == {};
    } else {
      var tail := fs[1..];
      SameSizeAsSetIffDistinct(tail);
      var s := set f | f in fs;
      var st := set f | f in tail;
      assert s == st + {fs[0]} by {
        assert forall f :: f in fs <==> f == fs[0] || f in tail by {
          assert fs == [fs[0]] + tail;
        }
      }
      assert |st| <= |tail| by {
        SetOfSeqBound(tail);
      }
      DistinctConsIff(fs);
      if fs[0] in tail {
        assert s == st;
      } else {
        assert |s| == |st| + 1;
      }
    }
  }

  lemma {:induction false} SetOfSeqBound(fs: seq<Feature>)
    ensures |set f | f in fs| <= |fs|
  {
    if |fs| > 0 {
      SetOfSeqBound(fs[1..]);
      var s := set f | f in fs;
      var st := set f | f in fs[1..];
      assert forall f :: f in fs <==> f == fs[0] || f in fs[1..] by {
        assert fs == [fs[0]] + fs[1..];
      }
      if fs[0] in st {
        assert s == st;
      } else {
        assert s == st + {fs[0]};
      }
    }
  }

  /** Errors of the size field: the field constraints first, then the
      validator, which only runs once those pass. */
  function SizeErrors(size: int): seq<ProfileError> {
    if size <= 0 then [SizeNotPositive]
    else if size > SizeFieldMax then [SizeAboveFieldMax]
    else if size > SizeReasonableMax then [SizeUnreasonable]
    else []
  }

  function CapacityErrors(capacity: int): seq<ProfileError> {
    if capacity <= 0 then [CapacityNotPositive]
    else if capacity > CapacityMax then [CapacityAboveMax]
    else []
  }

  function FeatureErrors(features: seq<Feature>): seq<ProfileError> {
    if !SameSizeAsSet(features) then [DuplicateFeatures] else []
  }

  /** Constructing a profile: all field errors are collected, in field order;
      the profile exists only when there are none. */
  function NewProfile(
    size: int, capacity: int, features: seq<Feature>,
    businessType: string, name: Option<string>, info: Option<string>
  ): (r: Result<BusinessProfile, seq<ProfileError>>)
    ensures r.Success? <==> 0 < size <= SizeReasonableMax && 0 < capacity <= CapacityMax && Distinct(features)
    ensures r.Success? ==> r.value == BusinessProfile(size, capacity, features, businessType, name, info)
    ensures r.Success? ==> ValidProfile(r.value)
    ensures r.Failure? ==> |r.error| > 0
    ensures r.Failure? ==> (DuplicateFeatures in r.error <==> !Distinct(features))
    ensures r.Failure? ==> (SizeUnreasonable in r.error <==> SizeReasonableMax < size <= SizeFieldMax)
  {
    SameSizeAsSetIffDistinct(features);
    var errors := SizeErrors(size) + CapacityErrors(capacity) + FeatureErrors(features);
    if |errors| == 0 then Success(BusinessProfile(size, capacity, features, businessType, name, info))
    else Failure(errors)
  }

  /** The raw questionnaire answers. */
  datatype QuestionnaireResponse = QuestionnaireResponse(
    size: int,
    seating: int,
    usesGas: bool,
    servesMeat: bool,
    offersDelivery: bool,
    servesAlcohol: bool,
    name: Option<string>,
    notes: Option<string>)

  /** The order in which the checkboxes are turned into features. */
  const CheckboxOrder: seq<Feature> := [GasUsage, Meat, Delivery, Alcohol]

  /** Whether the questionnaire ticks the box of feature `f`. */
  function Ticked(q: QuestionnaireResponse, f: Feature): bool {
    match f
    case GasUsage => q.usesGas
    case Meat => q.servesMeat
    case Delivery => q.offersDelivery
    case Alcohol => q.servesAlcohol
  }

  /** `Ticked` as a predicate on features. */
  function TickedBy(q: QuestionnaireResponse): Feature -> bool {
    f => Ticked(q, f)
  }

  /** The features of the ticked boxes, appended one checkbox at a time. */
  function CheckboxFeatures(q: QuestionnaireResponse): (r: seq<Feature>)
    ensures forall f :: f in r <==> Ticked(q, f)
    ensures Distinct(r)
  {
    (if q.usesGas then [GasUsage] else [])
      + (if q.servesMeat then [Meat] else [])
      + (if q.offersDelivery then [Delivery] else [])
      + (if q.servesAlcohol then [Alcohol] else [])
  }

  lemma FilterOfFour<T>(w: T, x: T, y: T, z: T, p: T -> bool)
    ensures Filter([w, x, y, z], p)
            == (if p(w) then [w] else []) + (if p(x) then [x] else [])
               + (if p(y) then [y] else []) + (if p(z) then [z] else [])
  {
    var a, b, c, d := (if p(w) then [w] else []), (if p(x) then [x] else []),
                      (if p(y) then [y] else []), (if p(z) then [z] else []);
    assert Filter([w] + [x], p) == a + b by {
      FilterSingleton(w, p);
      FilterSingleton(x, p);
      FilterConcat([w], [x], p);
    }
    assert Filter([w] + [x] + [y], p) == a + b + c by {
      FilterSingleton(y, p);
      FilterConcat([w] + [x], [y], p);
    }
    assert Filter([w] + [x] + [y] + [z], p) == a + b + c + d by {
      FilterSingleton(z, p);
      FilterConcat([w] + [x] + [y], [z], p);
    }
    assert [w, x, y, z] == [w] + [x] + [y] + [z];
  }

  /** The checkbox features are the ticked ones in checkbox order. */
  lemma CheckboxFeaturesInOrder(q: QuestionnaireResponse)
    ensures CheckboxFeatures(q) == Filter(CheckboxOrder, TickedBy(q))
  {
    FilterOfFour(GasUsage, Meat, Delivery, Alcohol, TickedBy(q));
  }

  /** Converting a questionnaire: features from the checkboxes, size and
      seating copied, the default business type; fails exactly when size or
      seating is out of bounds (the features are always distinct). */
  function ToBusinessProfile(q: QuestionnaireResponse): (r: Result<BusinessProfile, seq<ProfileError>>)
    ensures r.Success? <==> 0 < q.size <= SizeReasonableMax && 0 < q.seating <= CapacityMax
    ensures r.Success? ==> && r.value.size == q.size
                           && r.value.capacity == q.seating
                           && (forall f :: f in r.value.features <==> Ticked(q, f))
                           && r.value.businessType == DefaultBusinessType
                           && r.value.name == q.name
                           && r.value.info == q.notes
  {
    NewProfile(q.size, q.seating, CheckboxFeatures(q), DefaultBusinessType, q.name, q.notes)
  }

  datatype SizeCategory = Small | MediumSize | Large
  datatype CapacityCategory = Low | MediumCapacity | High

  function SizeCategoryOf(size: int): SizeCategory {
    if size <= 100 then Small
    else if size <= 300 then MediumSize
    else Large
  }

  function CapacityCategoryOf(capacity: int): CapacityCategory {
    if capacity <= 50 then Low
    else if capacity <= 200 then MediumCapacity
    else High
  }

  function SizeRank(c: SizeCategory): nat {
    match c
    case Small => 0
    case MediumSize => 1
    case Large => 2
  }

  function CapacityRank(c: CapacityCategory): nat {
    match c
    case Low => 0
    case MediumCapacity => 1
    case High => 2
  }

  /** The buckets are ordered intervals: a larger business never lands in a
      smaller bucket, and each bucket is exactly its interval. */
  lemma BucketsAreMonotoneIntervals(a: int, b: int)
    requires a <= b
    ensures SizeRank(SizeCategoryOf(a)) <= SizeRank(SizeCategoryOf(b))
    ensures CapacityRank(CapacityCategoryOf(a)) <= CapacityRank(CapacityCategoryOf(b))
    ensures SizeCategoryOf(a) == MediumSize <==> 100 < a <= 300
    ensures CapacityCategoryOf(a) == MediumCapacity <==> 50 < a <= 200
  {
  }

  /** The summary view (the complexity score is not modelled). */
  datatype ProfileSummary = ProfileSummary(
    sizeCategory: SizeCategory,
    capacityCategory: CapacityCategory,
    featureCount: nat)

  function SummaryOf(p: BusinessProfile): (r: ProfileSummary)
    ensures r.featureCount == |p.features|
    ensures r.sizeCategory == Small <==> p.size <= 100
    ensures r.sizeCategory == Large <==> p.size > 300
    ensures r.capacityCategory == Low <==> p.capacity <= 50
    ensures r.capacityCategory == High <==> p.capacity > 200
  {
    ProfileSummary(SizeCategoryOf(p.size), CapacityCategoryOf(p.capacity), |p.features|)
  }
}

=== FILE: profiler.dfy ===
/** The conversational business profiler: the information gathered so far,
    updates from an extracted field map, the completeness flag, the next
    question, the missing-field summary, the profile dictionary, reset, and
    business-type detection by substring. Numeric extraction by regular
    expressions is not modelled: updates take the extracted fields as input. */
module Profiler {

  import opened Wrappers
  import opened Seqs

  /** What the conversation has established; every field starts unknown. */
  datatype BusinessInfo = BusinessInfo(
    seatingCapacity: Option<int>,
    sizeSqm: Option<int>,
    businessType: Option<string>,
    floors: Option<int>,
    hasKitchen: Option<bool>,
    hasStorage: Option<bool>,
    hasOutdoorSeating: Option<bool>,
    isComplete: bool)

  /** `BusinessInfo()` and the state after `reset`. */
  const Initial := BusinessInfo(None, None, None, None, None, None, None, false)

  /** The fields a profile needs before it is complete. */
  datatype RequiredField = SeatingCapacity | SizeSqm | BusinessType

  /** `required_fields`, in declaration order. */
  const RequiredFields: seq<RequiredField> := [SeatingCapacity, SizeSqm, BusinessType]

  predicate IsMissing(info: BusinessInfo, f: RequiredField) {
    match f
    case SeatingCapacity => info.seatingCapacity.None?
    case SizeSqm => info.sizeSqm.None?
    case BusinessType => info.businessType.None?
  }

  function MissingIn(info: BusinessInfo): RequiredField -> bool {
    f => IsMissing(info, f)
  }

  /** The missing required fields, in `required_fields` order. */
  function MissingFields(info: BusinessInfo): (r: seq<RequiredField>)
    ensures forall f :: f in r <==> IsMissing(info, f)
    ensures r == [] <==> info.seatingCapacity.Some? && info.sizeSqm.Some? && info.businessType.Some?
  {
    (if info.seatingCapacity.None? then [SeatingCapacity] else [])
      + (if info.sizeSqm.None? then [SizeSqm] else [])
      + (if info.businessType.None? then [BusinessType] else [])
  }

  /** The missing fields are the required fields filtered by absence, so they
      keep the declaration order. */
  lemma MissingFieldsInOrder(info: BusinessInfo)
    ensures MissingFields(info) == Filter(RequiredFields, MissingIn(info))
  {
    FilterOfThree(SeatingCapacity, SizeSqm, BusinessType, MissingIn(info));
  }

  lemma FilterOfThree<T>(x: T, y: T, z: T, p: T -> bool)
    ensures Filter([x, y, z], p)
            == (if p(x) then [x] else []) + (if p(y) then [y] else []) + (if p(z) then [z] else [])
  {
    var a, b, c := (if p(x) then [x] else []), (if p(y) then [y] else []), (if p(z) then [z] else []);
    assert Filter([x] + [y], p) == a + b by {
      FilterSingleton(x, p);
      FilterSingleton(y, p);
      FilterConcat([x], [y], p);
    }
    assert Filter([x] + [y] + [z], p) == a + b + c by {
      FilterSingleton(z, p);
      FilterConcat([x] + [y], [z], p);
    }
    assert [x, y, z] == [x] + [y] + [z];
  }

  /** The flag agrees with the fields. */
  predicate Consistent(info: BusinessInfo) {
    info.isComplete <==> MissingFields(info) == []
  }

  /** The fields one turn of the conversation extracted; `None` means the
      field was not in the extracted map. */
  datatype Extraction = Extraction(
    seatingCapacity: Option<int>,
    sizeSqm: Option<int>,
    businessType: Option<string>,
    floors: Option<int>,
    hasKitchen: Option<bool>,
    hasStorage: Option<bool>,
    hasOutdoorSeating: Option<bool>)

  const NothingExtracted := Extraction(None, None, None, None, None, None, None)

  function Overwrite<T>(current: Option<T>, extracted: Option<T>): (r: Option<T>)
    ensures extracted.Some? ==> r == extracted
    ensures extracted.None? ==> r == current
  {
    if extracted.Some? then extracted else current
  }

  /** `update_business_info` over an extracted map: present fields are
      overwritten, the others kept, and completeness is recomputed from the
      three required fields. */
  function Update(info: BusinessInfo, ex: Extraction): (r: BusinessInfo)
    ensures Consistent(r)
    ensures r.isComplete <==> r.seatingCapacity.Some? && r.sizeSqm.Some? && r.businessType.Some?
    ensures ex.seatingCapacity.Some? ==> r.seatingCapacity == ex.seatingCapacity
    ensures ex.seatingCapacity.None? ==> r.seatingCapacity == info.seatingCapacity
    ensures ex.sizeSqm.Some? ==> r.sizeSqm == ex.sizeSqm
    ensures ex.sizeSqm.None? ==> r.sizeSqm == info.sizeSqm
    ensures ex.businessType.Some? ==> r.businessType == ex.businessType
    ensures ex.businessType.None? ==> r.businessType == info.businessType
    ensures ex.floors.Some? ==> r.floors == ex.floors
    ensures ex.floors.None? ==> r.floors == info.floors
    ensures r.hasKitchen == Overwrite(info.hasKitchen, ex.hasKitchen)
    ensures r.hasStorage == Overwrite(info.hasStorage, ex.hasStorage)
    ensures r.hasOutdoorSeating == Overwrite(info.hasOutdoorSeating, ex.hasOutdoorSeating)
  {
    var fields := BusinessInfo(
      Overwrite(info.seatingCapacity, ex.seatingCapacity),
      Overwrite(info.sizeSqm, ex.sizeSqm),
      Overwrite(info.businessType, ex.businessType),
      Overwrite(info.floors, ex.floors),
      Overwrite(info.hasKitchen, ex.hasKitchen),
      Overwrite(info.hasStorage, ex.hasStorage),
      Overwrite(info.hasOutdoorSeating, ex.hasOutdoorSeating),
      info.isComplete);
    fields.(isComplete := MissingFields(fields) == [])
  }

  /** Repeating an update changes nothing, an empty update only recomputes
      the flag, and a complete profile stays complete whatever is extracted. */
  lemma UpdateLaws(info: BusinessInfo, ex: Extraction)
    ensures Update(Update(info, ex), ex) == Update(info, ex)
    ensures Consistent(info) ==> Update(info, NothingExtracted) == info
    ensures info.seatingCapacity.Some? && info.sizeSqm.Some? && info.businessType.Some?
            ==> Update(info, ex).isComplete
  {
  }

  /** The order in which questions are asked. */
  const QuestionOrder: seq<RequiredField> := [BusinessType, SeatingCapacity, SizeSqm]

  function QuestionRank(f: RequiredField): (k: nat)
    ensures k < |QuestionOrder| && QuestionOrder[k] == f
  {
    match f
    case BusinessType => 0
    case SeatingCapacity => 1
    case SizeSqm => 2
  }

  /** The first question (by its field) in `order` whose field is missing. */
  function FirstAsked(order: seq<RequiredField>, missing: seq<RequiredField>): (r: Option<nat>)
    ensures r.Some? ==> r.value < |order| && order[r.value] in missing
                        && forall j :: 0 <= j < r.value ==> order[j] !in missing
    ensures r.None? ==> forall j :: 0 <= j < |order| ==> order[j] !in missing
  {
    if |order| == 0 then None
    else if order[0] in missing then Some(0)
    else match FirstAsked(order[1..], missing)
      case None => None
      case Some(k) => Some(k + 1)
  }

  /** A non-empty list of missing fields always has a question. */
  lemma FirstAskedFindsMissing(missing: seq<RequiredField>)
    requires missing != []
    ensures FirstAsked(QuestionOrder, missing).Some?
  {
    var f := missing[0];
    assert QuestionOrder[QuestionRank(f)] in missing;
  }

  /** `get_next_question`, identified by the field it asks about: nothing when
      no required field is missing, otherwise the first missing field in the
      order business type, seating, size. */
  function NextQuestion(info: BusinessInfo): (r: Option<RequiredField>)
    ensures r.None? <==> MissingFields(info) == []
    ensures r.Some? ==> IsMissing(info, r.value)
    ensures r.Some? ==> forall f :: QuestionRank(f) < QuestionRank(r.value) ==> !IsMissing(info, f)
  {
    var missing := MissingFields(info);
    if missing == [] then None
    else
      FirstAskedFindsMissing(missing);
      match FirstAsked(QuestionOrder, missing)
      case None =>
        assert false;
        None
      case Some(k) =>
        assert forall f :: QuestionRank(f) < k ==> QuestionOrder[QuestionRank(f)] !in missing;
        Some(QuestionOrder[k])
  }

  /** The display name of a missing field. */
  function FieldLabel(f: RequiredField): string {
    match f
    case SeatingCapacity => "מספר מקומות ישיבה"
    case SizeSqm => "שטח במטר רבוע"
    case BusinessType => "סוג העסק"
  }

  /** `get_missing_info_summary`: the labels of the missing fields, in
      `required_fields` order; empty exactly when the profile is complete. */
  function MissingInfoSummary(info: BusinessInfo): (r: seq<string>)
    ensures |r| == |MissingFields(info)|
    ensures forall i :: 0 <= i < |r| ==> r[i] == FieldLabel(MissingFields(info)[i])
    ensures Consistent(info) ==> (r == [] <==> info.isComplete)
  {
    Map(MissingFields(info), FieldLabel)
  }

  /** Field labels are distinct, so the summary names each missing field once. */
  lemma FieldLabelsDistinct(f: RequiredField, g: RequiredField)
    ensures FieldLabel(f) == FieldLabel(g) <==> f == g
  {
  }

  /** The keys of the profile dictionary. */
  datatype ProfileKey = SeatingKey | SizeKey | TypeKey | FloorsKey | KitchenKey | StorageKey | OutdoorKey

  datatype FieldValue = IntValue(i: int) | TextValue(s: string) | BoolValue(b: bool)

  /** Whether `get_business_profile_dict` includes key `k`: the numbers when
      known (floors only when non-zero), the type when non-empty, each flag
      when known. */
  predicate Included(info: BusinessInfo, k: ProfileKey) {
    match k
    case SeatingKey => info.seatingCapacity.Some?
    case SizeKey => info.sizeSqm.Some?
    case TypeKey => info.businessType.Some? && info.businessType.value != ""
    case FloorsKey => info.floors.Some? && info.floors.value != 0
    case KitchenKey => info.hasKitchen.Some?
    case StorageKey => info.hasStorage.Some?
    case OutdoorKey => info.hasOutdoorSeating.Some?
  }

  function ValueAt(info: BusinessInfo, k: ProfileKey): FieldValue
    requires Included(info, k)
  {
    match k
    case SeatingKey => IntValue(info.seatingCapacity.value)
    case SizeKey => IntValue(info.sizeSqm.value)
    case TypeKey => TextValue(info.businessType.value)
    case FloorsKey => IntValue(info.floors.value)
    case KitchenKey => BoolValue(info.hasKitchen.value)
    case StorageKey => BoolValue(info.hasStorage.value)
    case OutdoorKey => BoolValue(info.hasOutdoorSeating.value)
  }

  const AllKeys: set<ProfileKey> := {SeatingKey, SizeKey, TypeKey, FloorsKey, KitchenKey, StorageKey, OutdoorKey}

  /** `get_business_profile_dict`. */
  function ProfileDict(info: BusinessInfo): (r: map<ProfileKey, FieldValue>)
    ensures SeatingKey in r <==> info.seatingCapacity.Some?
    ensures SeatingKey in r ==> r[SeatingKey] == IntValue(info.seatingCapacity.value)
    ensures SizeKey in r <==> info.sizeSqm.Some?
    ensures SizeKey in r ==> r[SizeKey] == IntValue(info.sizeSqm.value)
    ensures TypeKey in r <==> info.businessType.Some? && info.businessType.value != ""
    ensures TypeKey in r ==> r[TypeKey] == TextValue(info.businessType.value)
    ensures FloorsKey in r <==> info.floors.Some? && info.floors.value != 0
    ensures FloorsKey in r ==> r[FloorsKey] == IntValue(info.floors.value)
    ensures KitchenKey in r <==> info.hasKitchen.Some?
    ensures KitchenKey in r ==> r[KitchenKey] == BoolValue(info.hasKitchen.value)
    ensures StorageKey in r <==> info.hasStorage.Some?
    ensures StorageKey in r ==> r[StorageKey] == BoolValue(info.hasStorage.value)
    ensures OutdoorKey in r <==> info.hasOutdoorSeating.Some?
    ensures OutdoorKey in r ==> r[OutdoorKey] == BoolValue(info.hasOutdoorSeating.value)
  {
    map k | k in AllKeys && Included(info, k) :: ValueAt(info, k)
  }

  /** After reset nothing is known: the dictionary is empty, every required
      field is missing, the profile is not complete, and the first question
      asks for the business type. */
  lemma ResetForgetsEverything()
    ensures Consistent(Initial)
    ensures !Initial.isComplete
    ensures ProfileDict(Initial) == map[]
    ensures MissingFields(Initial) == RequiredFields
    ensures NextQuestion(Initial) == Some(BusinessType)
  {
  }

  /** ASCII case folding (the business-type names are Hebrew, which has no
      case). */
  function LowerChar(c: char): (r: char)
    ensures 'A' <= c <= 'Z' ==> 'a' <= r <= 'z'
    ensures !('A' <= c <= 'Z') ==> r == c
  {
    if 'A' <= c <= 'Z' then (c as int + 32) as char else c
  }

  function Lower(s: string): (r: string)
    ensures |r| == |s|
    ensures forall i :: 0 <= i < |s| ==> r[i] == LowerChar(s[i])
  {
    seq(|s|, i requires 0 <= i < |s| => LowerChar(s[i]))
  }

  /** `pattern in text`. */
  predicate Contains(text: string, pattern: string) {
    exists i :: 0 <= i <= |text| && pattern <= text[i..]
  }

  /** One standard business type and the phrases that identify it. */
  datatype TypeEntry = TypeEntry(standard: string, variations: seq<string>)

  /** Some phrase of the entry occurs in the text. */
  predicate Mentions(e: TypeEntry, text: string) {
    exists v :: v in e.variations && Contains(text, v)
  }

  /** The standard types in declaration order. */
  const BusinessTypes: seq<TypeEntry> := [
    TypeEntry("מסעדה", ["מסעדה", "מסעדת", "בית אוכל", "מקום אוכל"]),
    TypeEntry("בית קפה", ["בית קפה", "קפה", "בית-קפה", "קפיטריה"]),
    TypeEntry("בר", ["בר", "פאב", "ביר-בר"]),
    TypeEntry("מועדון", ["מועדון", "קלאב", "מועדון לילה"]),
    TypeEntry("חנות", ["חנות", "חנות בגדים", "בוטיק"]),
    TypeEntry("משרד", ["משרד", "משרדים", "חברה"]),
    TypeEntry("מפעל", ["מפעל", "בית חרושת", "פעילות תעשייתית"]),
    TypeEntry("מרכז קניות", ["מרכז קניות", "קניון", "גלריה"]),
    TypeEntry("בית ספר", ["בית ספר", "בי״ס", "מוסד חינוכי"]),
    TypeEntry("מלון", ["מלון", "בית מלון", "אכסניה"])
  ]

  /** The first phrase of `vs` that occurs in the text (the inner loop). */
  function FirstPhrase(vs: seq<string>, text: string): (r: Option<nat>)
    ensures r.Some? ==> r.value < |vs| && Contains(text, vs[r.value])
    ensures r.None? ==> forall v :: v in vs ==> !Contains(text, v)
  {
    if |vs| == 0 then None
    else if Contains(text, vs[0]) then Some(0)
    else match FirstPhrase(vs[1..], text)
      case None =>
        assert forall v :: v in vs ==> v == vs[0] || v in vs[1..];
        None
      case Some(k) => Some(k + 1)
  }

  /** The index of the first entry that the text mentions (the outer loop). */
  function FirstType(table: seq<TypeEntry>, text: string): (r: Option<nat>)
    ensures r.Some? ==> r.value < |table| && Mentions(table[r.value], text)
                        && forall j :: 0 <= j < r.value ==> !Mentions(table[j], text)
    ensures r.None? ==> forall j :: 0 <= j < |table| ==> !Mentions(table[j], text)
  {
    if |table| == 0 then None
    else if FirstPhrase(table[0].variations, text).Some? then
      var k := FirstPhrase(table[0].variations, text).value;
      assert table[0].variations[k] in table[0].variations;
      Some(0)
    else match FirstType(table[1..], text)
      case None => None
      case Some(k) => Some(k + 1)
  }

  /** Business-type detection: the first standard type, in declaration order,
      one of whose phrases occurs in the lower-cased text. */
  function DetectBusinessType(text: string): (r: Option<string>)
    ensures r.None? <==> forall j :: 0 <= j < |BusinessTypes| ==> !Mentions(BusinessTypes[j], Lower(text))
    ensures r.Some? ==> exists k :: && 0 <= k < |BusinessTypes|
                                    && r.value == BusinessTypes[k].standard
                                    && Mentions(BusinessTypes[k], Lower(text))
                                    && forall j :: 0 <= j < k ==> !Mentions(BusinessTypes[j], Lower(text))
  {
    match FirstType(BusinessTypes, Lower(text))
    case None => None
    case Some(k) => Some(BusinessTypes[k].standard)
  }

  /** Every standard type is one of its own phrases, so naming a type is
      enough for detection to find some type. */
  lemma StandardNamesAreDetected(k: nat, text: string)
    requires k < |BusinessTypes|
    requires Contains(Lower(text), BusinessTypes[k].standard)
    ensures DetectBusinessType(text).Some?
  {
    assert BusinessTypes[k].standard in BusinessTypes[k].variations;
    assert Mentions(BusinessTypes[k], Lower(text));
  }
}

=== FILE: rules.dfy ===
/** The rule processor: five refinement stages over the raw matches, and the
    conflict log threaded through successive requests. */
module Rules {

  import opened Wrappers
  import opened Seqs
  import opened Ordering
  import opened Profile
  import opened Engine

  /** The small-business regime (chapter 5) ends at 150 m² and 50 people. */
  const Chapter5MaxSize := 150
  const Chapter5MaxCapacity := 50
  const SmallChapter := 5
  const LargeChapter := 6

  datatype ConflictType = ChapterOverlap

  /** The resolution note: which chapter's requirement was preferred. */
  datatype Resolution = PreferChapter(chapter: int)

  /** A logged conflict between a kept primary match and a dropped secondary one. */
  datatype RuleConflict = RuleConflict(
    requirement1Id: string,
    requirement2Id: string,
    conflictType: ConflictType,
    resolution: Resolution,
    preferredId: string)

  /** The conflict log kept between calls. */
  datatype RuleSession = RuleSession(conflicts: seq<RuleConflict>)

  /** Categories whose requirements overlap across chapters. */
  predicate OverlappingCategory(c: Category) {
    c == FireEquipment || c == Electrical || c == Signage
  }

  /** Two matches conflict: same overlapping category, or the same title, in
      different chapters. */
  predicate RequirementsConflict(a: RequirementMatch, b: RequirementMatch) {
    || (a.category == b.category && a.chapter != b.chapter && OverlappingCategory(a.category))
    || (a.title == b.title && a.chapter != b.chapter)
  }

  /** The conflict relation is symmetric and never relates one chapter to itself. */
  lemma ConflictIsSymmetricAcrossChapters(a: RequirementMatch, b: RequirementMatch)
    ensures RequirementsConflict(a, b) <==> RequirementsConflict(b, a)
    ensures a.chapter == b.chapter ==> !RequirementsConflict(a, b)
    ensures RequirementsConflict(a, b) <==>
              a.chapter != b.chapter && (a.title == b.title || (a.category == b.category && OverlappingCategory(a.category)))
  {
  }

  /** `m` conflicts with no match of `primary`. */
  ghost predicate ConflictFree(m: RequirementMatch, primary: seq<RequirementMatch>) {
    forall q :: q in primary ==> !RequirementsConflict(q, m)
  }

  /** The first match of `primary` that conflicts with `m` (the inner loop
      with its `break`). */
  function FirstConflicting(m: RequirementMatch, primary: seq<RequirementMatch>): (r: Option<RequirementMatch>)
    ensures r.None? <==> ConflictFree(m, primary)
    ensures r.Some? ==> exists i :: && 0 <= i < |primary| && primary[i] == r.value
                                   && RequirementsConflict(r.value, m)
                                   && forall j :: 0 <= j < i ==> !RequirementsConflict(primary[j], m)
  {
    if |primary| == 0 then None
    else if RequirementsConflict(primary[0], m) then Some(primary[0])
    else
      var r := FirstConflicting(m, primary[1..]);
      assert forall q :: q in primary <==> q == primary[0] || q in primary[1..] by {
        assert primary == [primary[0]] + primary[1..];
      }
      if r.Some? then
        var i :| && 0 <= i < |primary[1..]| && primary[1..][i] == r.value
                 && RequirementsConflict(r.value, m)
                 && forall j :: 0 <= j < i ==> !RequirementsConflict(primary[1..][j], m);
        assert primary[i + 1] == r.value;
        r
      else r
  }

  /** The matches of chapter `n`, in order. */
  function ChapterMatches(ms: seq<RequirementMatch>, n: int): (r: seq<RequirementMatch>)
    ensures forall m :: m in r <==> m in ms && m.chapter == n
    ensures |r| <= |ms|
  {
    if |ms| == 0 then []
    else
      assert forall m :: m in ms <==> m == ms[0] || m in ms[1..] by {
        assert ms == [ms[0]] + ms[1..];
      }
      (if ms[0].chapter == n then [ms[0]] else []) + ChapterMatches(ms[1..], n)
  }

  lemma {:induction false} ChapterMatchesConcat(a: seq<RequirementMatch>, b: seq<RequirementMatch>, n: int)
    ensures ChapterMatches(a + b, n) == ChapterMatches(a, n) + ChapterMatches(b, n)
  {
    if |a| == 0 {
      assert a + b == b;
    } else {
      assert (a + b)[1..] == a[1..] + b;
      ChapterMatchesConcat(a[1..], b, n);
    }
  }

  /** Selecting a chapter keeps a list entirely of that chapter whole, and
      empties a list with none of it. */
  lemma {:induction false} ChapterMatchesOfOneChapter(xs: seq<RequirementMatch>, n: int, k: int)
    requires forall m :: m in xs ==> m.chapter == n
    ensures ChapterMatches(xs, n) == xs
    ensures k != n ==> ChapterMatches(xs, k) == []
  {
    if |xs| > 0 {
      assert xs[0] in xs;
      assert forall m :: m in xs[1..] ==> m in xs;
      ChapterMatchesOfOneChapter(xs[1..], n, k);
    }
  }

  /** The secondary matches that conflict with no primary match, in order. */
  function Survivors(secondary: seq<RequirementMatch>, primary: seq<RequirementMatch>): (r: seq<RequirementMatch>)
    ensures forall m :: m in r <==> m in secondary && ConflictFree(m, primary)
    ensures |r| <= |secondary|
  {
    if |secondary| == 0 then []
    else
      assert forall m :: m in secondary <==> m == secondary[0] || m in secondary[1..] by {
        assert secondary == [secondary[0]] + secondary[1..];
      }
      (if FirstConflicting(secondary[0], primary).None? then [secondary[0]] else [])
        + Survivors(secondary[1..], primary)
  }

  /** Nothing is dropped when nothing conflicts. */
  lemma {:induction false} SurvivorsWhenConflictFree(secondary: seq<RequirementMatch>, primary: seq<RequirementMatch>)
    requires forall m :: m in secondary ==> ConflictFree(m, primary)
    ensures Survivors(secondary, primary) == secondary
  {
    if |secondary| > 0 {
      assert secondary[0] in secondary;
      assert forall m :: m in secondary[1..] ==> m in secondary;
      SurvivorsWhenConflictFree(secondary[1..], primary);
    }
  }

  /** Some match of chapter `n` is present. */
  predicate HasChapter(ms: seq<RequirementMatch>, n: int) {
    |ChapterMatches(ms, n)| > 0
  }

  lemma HasChapterIff(ms: seq<RequirementMatch>, n: int)
    ensures HasChapter(ms, n) <==> exists m :: m in ms && m.chapter == n
  {
    if HasChapter(ms, n) {
      assert ChapterMatches(ms, n)[0] in ChapterMatches(ms, n);
    }
  }

  /** Both regimes are represented among the matches. */
  predicate BothChapters(ms: seq<RequirementMatch>) {
    HasChapter(ms, SmallChapter) && HasChapter(ms, LargeChapter)
  }

  /** `m` conflicts with no match of chapter `n` in `ms`. */
  ghost predicate FreeAgainst(m: RequirementMatch, ms: seq<RequirementMatch>, n: int) {
    ConflictFree(m, ChapterMatches(ms, n))
  }

  /** The boundary stage triggers when either dimension sits exactly at its
      chapter-5 limit. */
  predicate BoundaryFires(p: BusinessProfile) {
    p.size == Chapter5MaxSize || p.capacity == Chapter5MaxCapacity
  }

  /** Boundary handling: when it triggers and both chapters are present, the
      chapter-5 matches followed by the chapter-6 matches that conflict with
      none of them (`BoundaryContents`); otherwise the list is unchanged. */
  function HandleBoundary(ms: seq<RequirementMatch>, p: BusinessProfile): (r: seq<RequirementMatch>)
    ensures !(BoundaryFires(p) && BothChapters(ms)) ==> r == ms
    ensures forall m :: m in r ==> m in ms
    ensures |r| <= |ms|
  {
    var small := ChapterMatches(ms, SmallChapter);
    var large := ChapterMatches(ms, LargeChapter);
    if BoundaryFires(p) && BothChapters(ms) then
      ChapterSplitLength(ms);
      small + Survivors(large, small)
    else ms
  }

  /** When the boundary stage fires with both chapters present, it keeps every
      chapter-5 match and exactly the chapter-6 matches free of conflict with
      them, drops every other chapter, and puts the chapter-5 block first. */
  lemma BoundaryContents(ms: seq<RequirementMatch>, p: BusinessProfile)
    requires BoundaryFires(p) && BothChapters(ms)
    ensures forall m :: m in HandleBoundary(ms, p) <==>
              m in ms && (m.chapter == SmallChapter || (m.chapter == LargeChapter && FreeAgainst(m, ms, SmallChapter)))
    ensures forall i, j :: 0 <= i < j < |HandleBoundary(ms, p)| && HandleBoundary(ms, p)[j].chapter == SmallChapter
              ==> HandleBoundary(ms, p)[i].chapter == SmallChapter
  {
    var small := ChapterMatches(ms, SmallChapter);
    var kept := Survivors(ChapterMatches(ms, LargeChapter), small);
    var r := HandleBoundary(ms, p);
    assert r == small + kept;
    assert forall m :: m in r <==> m in small || m in kept;
    assert forall i :: |small| <= i < |r| ==> r[i] in kept;
    assert forall i :: 0 <= i < |small| ==> r[i] in small;
  }

  /** The chapter-5 and chapter-6 matches together are no more than all matches. */
  lemma {:induction false} ChapterSplitLength(ms: seq<RequirementMatch>)
    ensures |ChapterMatches(ms, SmallChapter)| + |ChapterMatches(ms, LargeChapter)| <= |ms|
  {
    if |ms| > 0 {
      ChapterSplitLength(ms[1..]);
    }
  }

  /** The primary chapter: 5 exactly when the business is within both
      chapter-5 limits. */
  function PrimaryChapter(p: BusinessProfile): (r: int)
    ensures r == SmallChapter <==> p.size <= Chapter5MaxSize && p.capacity <= Chapter5MaxCapacity
    ensures r == SmallChapter || r == LargeChapter
  {
    if p.size <= Chapter5MaxSize && p.capacity <= Chapter5MaxCapacity then SmallChapter else LargeChapter
  }

  function SecondaryChapter(p: BusinessProfile): (r: int)
    ensures r != PrimaryChapter(p) && (r == SmallChapter || r == LargeChapter)
  {
    if PrimaryChapter(p) == SmallChapter then LargeChapter else SmallChapter
  }

  /** The log entry for secondary match `s` when some primary conflicts with it. */
  function ConflictFor(s: RequirementMatch, primary: seq<RequirementMatch>, chapter: int): Option<RuleConflict> {
    match FirstConflicting(s, primary)
    case None => None
    case Some(q) => Some(RuleConflict(q.id, s.id, ChapterOverlap, PreferChapter(chapter), q.id))
  }

  /** The conflicts recorded by the reconciliation loop: one per secondary match
      it drops, naming the first conflicting primary as preferred. */
  function DropLog(secondary: seq<RequirementMatch>, primary: seq<RequirementMatch>, chapter: int): (r: seq<RuleConflict>)
    ensures |r| + |Survivors(secondary, primary)| == |secondary|
    ensures forall c :: c in r ==> && c.resolution == PreferChapter(chapter)
                                   && c.requirement1Id == c.preferredId
                                   && c.conflictType == ChapterOverlap
  {
    if |secondary| == 0 then []
    else ConflictFor(secondary[0], primary, chapter).ToSeq() + DropLog(secondary[1..], primary, chapter)
  }

  /** The log holds exactly the conflicts of the secondary matches that have
      one. */
  lemma {:induction false} DropLogMembers(secondary: seq<RequirementMatch>, primary: seq<RequirementMatch>, chapter: int)
    ensures forall c :: c in DropLog(secondary, primary, chapter) ==> exists s :: s in secondary && ConflictFor(s, primary, chapter) == Some(c)
    ensures forall s :: s in secondary && ConflictFor(s, primary, chapter).Some? ==> ConflictFor(s, primary, chapter).value in DropLog(secondary, primary, chapter)
  {
    if |secondary| > 0 {
      DropLogMembers(secondary[1..], primary, chapter);
      assert forall s :: s in secondary <==> s == secondary[0] || s in secondary[1..] by {
        assert secondary == [secondary[0]] + secondary[1..];
      }
    }
  }

  datatype Reconciled = Reconciled(matches: seq<RequirementMatch>, conflicts: seq<RuleConflict>)

  /** The reconciliation loop proper: every primary match, then the secondary
      matches that conflict with none of them, logging one conflict for each
      secondary match it drops. */
  function ResolveAgainst(primary: seq<RequirementMatch>, secondary: seq<RequirementMatch>, chapter: int): (r: Reconciled)
    ensures forall m :: m in r.matches <==> m in primary || (m in secondary && ConflictFree(m, primary))
    ensures |r.matches| == |primary| + |Survivors(secondary, primary)|
    ensures |r.conflicts| + |Survivors(secondary, primary)| == |secondary|
    ensures forall c :: c in r.conflicts ==> && c.resolution == PreferChapter(chapter)
                                             && c.requirement1Id == c.preferredId
                                             && c.conflictType == ChapterOverlap
  {
    var kept := Survivors(secondary, primary);
    assert forall m :: m in primary + kept <==> m in primary || m in kept;
    Reconciled(primary + kept, DropLog(secondary, primary, chapter))
  }

  /** Chapter reconciliation: with both chapters present, the loop of
      `ResolveAgainst` with the primary chapter chosen by size and capacity
      (`ReconcileContents`); otherwise the input unchanged and no conflict. */
  function Reconcile(ms: seq<RequirementMatch>, p: BusinessProfile): (r: Reconciled)
    ensures !BothChapters(ms) ==> r == Reconciled(ms, [])
    ensures forall c :: c in r.conflicts ==> && c.resolution == PreferChapter(PrimaryChapter(p))
                                             && c.requirement1Id == c.preferredId
                                             && c.conflictType == ChapterOverlap
    ensures forall m :: m in r.matches ==> m in ms
    ensures |r.matches| <= |ms|
  {
    if !BothChapters(ms) then Reconciled(ms, [])
    else
      var primary := ChapterMatches(ms, PrimaryChapter(p));
      var secondary := ChapterMatches(ms, SecondaryChapter(p));
      ChapterSplitLength(ms);
      assert |primary| + |secondary| <= |ms|;
      ResolveAgainst(primary, secondary, PrimaryChapter(p))
  }

  /** With both chapters present, reconciliation keeps exactly the primary
      chapter's matches and the secondary ones free of conflict with them, and
      logs one conflict per secondary match it drops. */
  lemma ReconcileContents(ms: seq<RequirementMatch>, p: BusinessProfile)
    requires BothChapters(ms)
    ensures forall m :: m in Reconcile(ms, p).matches <==>
              m in ms && (m.chapter == PrimaryChapter(p)
                          || (m.chapter == SecondaryChapter(p) && FreeAgainst(m, ms, PrimaryChapter(p))))
    ensures |Reconcile(ms, p).conflicts|
            + |Survivors(ChapterMatches(ms, SecondaryChapter(p)), ChapterMatches(ms, PrimaryChapter(p)))|
            == |ChapterMatches(ms, SecondaryChapter(p))|
  {
    var primary := ChapterMatches(ms, PrimaryChapter(p));
    var secondary := ChapterMatches(ms, SecondaryChapter(p));
    assert Reconcile(ms, p) == ResolveAgainst(primary, secondary, PrimaryChapter(p));
  }

  /** After the boundary stage has fired, the chapter-5 matches are those of
      the input and the chapter-6 matches are the survivors. */
  lemma BoundaryChapters(ms: seq<RequirementMatch>, p: BusinessProfile)
    requires BoundaryFires(p) && BothChapters(ms)
    ensures ChapterMatches(HandleBoundary(ms, p), SmallChapter) == ChapterMatches(ms, SmallChapter)
    ensures ChapterMatches(HandleBoundary(ms, p), LargeChapter)
            == Survivors(ChapterMatches(ms, LargeChapter), ChapterMatches(ms, SmallChapter))
    ensures HandleBoundary(ms, p) == ChapterMatches(ms, SmallChapter)
                                     + Survivors(ChapterMatches(ms, LargeChapter), ChapterMatches(ms, SmallChapter))
  {
    var small := ChapterMatches(ms, SmallChapter);
    var kept := Survivors(ChapterMatches(ms, LargeChapter), small);
    assert HandleBoundary(ms, p) == small + kept;
    ChapterMatchesConcat(small, kept, SmallChapter);
    ChapterMatchesConcat(small, kept, LargeChapter);
    ChapterMatchesOfOneChapter(small, SmallChapter, LargeChapter);
    ChapterMatchesOfOneChapter(kept, LargeChapter, SmallChapter);
  }

  /** Resolving against primaries that conflict with no secondary match keeps
      everything and logs nothing. */
  lemma ResolveWithoutConflicts(primary: seq<RequirementMatch>, secondary: seq<RequirementMatch>, chapter: int)
    requires forall m :: m in secondary ==> ConflictFree(m, primary)
    ensures ResolveAgainst(primary, secondary, chapter) == Reconciled(primary + secondary, [])
  {
    SurvivorsWhenConflictFree(secondary, primary);
  }

  /** The survivors of the boundary stage conflict with no chapter-5 match, and
      by symmetry no chapter-5 match conflicts with them. */
  lemma SurvivorsConflictWithNothing(small: seq<RequirementMatch>, large: seq<RequirementMatch>)
    ensures forall m :: m in Survivors(large, small) ==> ConflictFree(m, small)
    ensures forall m :: m in small ==> ConflictFree(m, Survivors(large, small))
  {
    var kept := Survivors(large, small);
    forall m | m in small
      ensures ConflictFree(m, kept)
    {
      forall q | q in kept
        ensures !RequirementsConflict(q, m)
      {
        ConflictIsSymmetricAcrossChapters(q, m);
      }
    }
  }

  /** The two-chapter case of `BoundaryThenReconcileIsQuiet` when chapter 5
      is primary: the result is the boundary output itself. */
  lemma QuietWithSmallPrimary(ms: seq<RequirementMatch>, p: BusinessProfile)
    requires BoundaryFires(p) && BothChapters(ms) && BothChapters(HandleBoundary(ms, p))
    requires PrimaryChapter(p) == SmallChapter
    ensures Reconcile(HandleBoundary(ms, p), p) == Reconciled(HandleBoundary(ms, p), [])
  {
    var small := ChapterMatches(ms, SmallChapter);
    var kept := Survivors(ChapterMatches(ms, LargeChapter), small);
    BoundaryChapters(ms, p);
    SurvivorsConflictWithNothing(small, ChapterMatches(ms, LargeChapter));
    ResolveWithoutConflicts(small, kept, SmallChapter);
  }

  /** The two-chapter case when chapter 6 is primary: the chapter-6 block
      moves ahead and nothing is dropped. */
  lemma QuietWithLargePrimary(ms: seq<RequirementMatch>, p: BusinessProfile)
    requires BoundaryFires(p) && BothChapters(ms) && BothChapters(HandleBoundary(ms, p))
    requires PrimaryChapter(p) == LargeChapter
    ensures Reconcile(HandleBoundary(ms, p), p).conflicts == []
    ensures multiset(Reconcile(HandleBoundary(ms, p), p).matches) == multiset(HandleBoundary(ms, p))
  {
    var small := ChapterMatches(ms, SmallChapter);
    var kept := Survivors(ChapterMatches(ms, LargeChapter), small);
    var b := HandleBoundary(ms, p);
    BoundaryChapters(ms, p);
    SurvivorsConflictWithNothing(small, ChapterMatches(ms, LargeChapter));
    ReconcileLargePrimary(b, p, small, kept);
  }

  /** Reconciliation with chapter 6 primary, when no chapter-5 match conflicts
      with a chapter-6 one: the chapter-6 block followed by the chapter-5 one. */
  lemma ReconcileLargePrimary(b: seq<RequirementMatch>, p: BusinessProfile,
                              small: seq<RequirementMatch>, large: seq<RequirementMatch>)
    requires BothChapters(b) && PrimaryChapter(p) == LargeChapter
    requires ChapterMatches(b, SmallChapter) == small && ChapterMatches(b, LargeChapter) == large
    requires forall m :: m in small ==> ConflictFree(m, large)
    requires b == small + large
    ensures Reconcile(b, p).conflicts == []
    ensures multiset(Reconcile(b, p).matches) == multiset(b)
  {
    ResolveWithoutConflicts(large, small, LargeChapter);
    assert Reconcile(b, p).matches == large + small;
    SwapBlocks(large, small);
  }

  /** Once the boundary stage has fired, reconciliation drops nothing and logs
      nothing: it can at most move the chapter-6 block ahead. */
  lemma BoundaryThenReconcileIsQuiet(ms: seq<RequirementMatch>, p: BusinessProfile)
    requires BoundaryFires(p)
    ensures Reconcile(HandleBoundary(ms, p), p).conflicts == []
    ensures multiset(Reconcile(HandleBoundary(ms, p), p).matches) == multiset(HandleBoundary(ms, p))
  {
    if BothChapters(ms) && BothChapters(HandleBoundary(ms, p)) {
      if PrimaryChapter(p) == SmallChapter {
        QuietWithSmallPrimary(ms, p);
      } else {
        QuietWithLargePrimary(ms, p);
      }
    }
  }

  /** Gas usage: every gas match becomes critical; nothing else changes. */
  function ElevateGas(m: RequirementMatch): (r: RequirementMatch)
    ensures r.category == Gas ==> r.priority == 1
    ensures r.category != Gas ==> r == m
    ensures r.(priority := m.priority) == m
  {
    if m.category == Gas then m.(priority := 1) else m
  }

  /** Delivery: every signage match gains the delivery reason. */
  function NoteDelivery(m: RequirementMatch): (r: RequirementMatch)
    ensures m.category == Signage ==> r.reasons == m.reasons + [DeliveryService]
    ensures m.category != Signage ==> r == m
    ensures r.(reasons := m.reasons) == m
  {
    if m.category == Signage then m.(reasons := m.reasons + [DeliveryService]) else m
  }

  /** Complex business: a non-critical match moves up one level and gains the
      complexity reason. */
  function Escalate(m: RequirementMatch): (r: RequirementMatch)
    ensures m.priority > 1 ==> r.priority == m.priority - 1 && r.reasons == m.reasons + [ComplexBusiness]
    ensures m.priority <= 1 ==> r == m
    ensures r.(priority := m.priority, reasons := m.reasons) == m
  {
    if m.priority > 1 then
      m.(priority := if m.priority - 1 > 1 then m.priority - 1 else 1, reasons := m.reasons + [ComplexBusiness])
    else m
  }

  /** The two matches are of the same requirement: they differ at most in
      priority and reasons. */
  predicate SameRequirement(a: RequirementMatch, b: RequirementMatch) {
    a.(priority := b.priority, reasons := b.reasons) == b
  }

  /** Complex businesses have at least three features. */
  const ComplexFeatureCount := 3

  function MultiFeatureRule(ms: seq<RequirementMatch>, p: BusinessProfile): (r: seq<RequirementMatch>)
    ensures |r| == |ms|
    ensures |p.features| < ComplexFeatureCount ==> r == ms
    ensures |p.features| >= ComplexFeatureCount ==> forall i :: 0 <= i < |ms| ==> r[i] == Escalate(ms[i])
  {
    if |p.features| >= ComplexFeatureCount then Map(ms, Escalate) else ms
  }

  /** Whether the multi-feature rule moves this match up: three or more
      features, a non-critical priority, and not a gas match already made
      critical by the gas rule. */
  predicate EscalatedUnder(m: RequirementMatch, p: BusinessProfile) {
    && |p.features| >= ComplexFeatureCount
    && !(GasUsage in p.features && m.category == Gas)
    && m.priority > 1
  }

  /** Feature-combination rules, applied in the source's order: gas, delivery,
      alcohol (no effect), then the multi-feature rule when there is more than
      one feature. Every match keeps its identity and position; only
      priorities and reasons change. */
  function ApplyFeatureRules(ms: seq<RequirementMatch>, p: BusinessProfile): (r: seq<RequirementMatch>)
    ensures |r| == |ms|
    ensures forall i :: 0 <= i < |ms| ==> SameRequirement(r[i], ms[i])
    ensures GasUsage in p.features ==> forall i :: 0 <= i < |r| && r[i].category == Gas ==> r[i].priority == 1
    ensures forall i :: 0 <= i < |ms| && 1 <= ms[i].priority <= 3 ==> 1 <= r[i].priority <= ms[i].priority
    ensures GasUsage !in p.features && |p.features| < ComplexFeatureCount ==>
              forall i :: 0 <= i < |ms| ==> r[i].priority == ms[i].priority
    ensures Delivery in p.features ==>
              forall i :: 0 <= i < |ms| && ms[i].category == Signage ==> DeliveryService in r[i].reasons
    ensures forall i :: 0 <= i < |ms| && EscalatedUnder(ms[i], p)
                        ==> r[i].priority == ms[i].priority - 1 && ComplexBusiness in r[i].reasons
    ensures forall i :: 0 <= i < |ms| && !(GasUsage in p.features && ms[i].category == Gas) && !EscalatedUnder(ms[i], p)
                        ==> r[i].priority == ms[i].priority
    ensures forall i :: 0 <= i < |ms| ==>
              r[i].reasons == ms[i].reasons
                              + (if Delivery in p.features && ms[i].category == Signage then [DeliveryService] else [])
                              + (if EscalatedUnder(ms[i], p) then [ComplexBusiness] else [])
  {
    var gas := if GasUsage in p.features then Map(ms, ElevateGas) else ms;
    var delivery := if Delivery in p.features then Map(gas, NoteDelivery) else gas;
    var alcohol := delivery;
    if |p.features| > 1 then MultiFeatureRule(alcohol, p) else alcohol
  }

  function MatchId(m: RequirementMatch): string {
    m.id
  }

  /** Deduplication by id (first occurrence wins) followed by the re-sort. */
  function Prioritize(ms: seq<RequirementMatch>): (r: seq<RequirementMatch>)
    ensures r == SortBy(DedupBy(ms, MatchId), MatchKey)
    ensures SortedBy(r, MatchKey)
    ensures DistinctKeys(r, MatchId)
    ensures forall m :: m in r ==> m in ms && FirstWithKey(ms, MatchId, m.id) == Some(m)
    ensures KeysOf(r, MatchId) == KeysOf(ms, MatchId)
    ensures |r| <= |ms|
  {
    var unique := DedupBy(ms, MatchId);
    var sorted := SortBy(unique, MatchKey);
    SortByKeepsDistinctKeys(unique, MatchKey, MatchId);
    assert forall m :: m in sorted <==> m in unique by {
      assert forall m :: m in sorted <==> m in multiset(sorted);
      assert forall m :: m in unique <==> m in multiset(unique);
    }
    assert KeysOf(sorted, MatchId) == KeysOf(unique, MatchId);
    sorted
  }

  /** The validation stage only logs warnings; the matches pass through. */
  function ValidateRequirementSet(ms: seq<RequirementMatch>, p: BusinessProfile): (r: seq<RequirementMatch>)
    ensures r == ms
  {
    ms
  }

  datatype Processed = Processed(session: RuleSession, matches: seq<RequirementMatch>)

  /** Two lists that agree on the id at every position have the same ids. */
  lemma SameIdsSameKeys(a: seq<RequirementMatch>, b: seq<RequirementMatch>)
    requires |a| == |b|
    requires forall i :: 0 <= i < |a| ==> a[i].id == b[i].id
    ensures KeysOf(a, MatchId) == KeysOf(b, MatchId)
  {
    forall k | k in KeysOf(a, MatchId)
      ensures k in KeysOf(b, MatchId)
    {
      var i :| 0 <= i < |a| && a[i].id == k;
      assert b[i] in b;
    }
    forall k | k in KeysOf(b, MatchId)
      ensures k in KeysOf(a, MatchId)
    {
      var i :| 0 <= i < |b| && b[i].id == k;
      assert a[i] in a;
    }
  }

  /** The match list after the rule stages, before deduplication. */
  function Refine(ms: seq<RequirementMatch>, p: BusinessProfile): (r: seq<RequirementMatch>)
    ensures |r| <= |ms|
    ensures forall m :: m in r ==> exists m0 :: m0 in ms && m0.id == m.id && m0.chapter == m.chapter
    ensures GasUsage in p.features ==> forall m :: m in r && m.category == Gas ==> m.priority == 1
    ensures KeysOf(r, MatchId) == KeysOf(Reconcile(HandleBoundary(ms, p), p).matches, MatchId)
  {
    var reconciled := Reconcile(HandleBoundary(ms, p), p).matches;
    var r := ApplyFeatureRules(reconciled, p);
    SameIdsSameKeys(r, reconciled);
    forall m | m in r
      ensures exists m0 :: m0 in ms && m0.id == m.id && m0.chapter == m.chapter
    {
      var i :| 0 <= i < |r| && r[i] == m;
      assert reconciled[i] in reconciled;
      assert SameRequirement(r[i], reconciled[i]);
    }
    r
  }

  /** `process_matches`: boundary handling, reconciliation, feature rules,
      deduplication with the re-sort, and validation, with the conflicts of
      this call appended to the session log. */
  function Process(s: RuleSession, ms: seq<RequirementMatch>, p: BusinessProfile): (r: Processed)
    ensures s.conflicts <= r.session.conflicts
    ensures BoundaryFires(p) ==> r.session == s
    ensures SortedBy(r.matches, MatchKey)
    ensures DistinctKeys(r.matches, MatchId)
    ensures |r.matches| <= |ms|
    ensures forall m :: m in r.matches ==> exists m0 :: m0 in ms && m0.id == m.id && m0.chapter == m.chapter
    ensures GasUsage in p.features ==> forall m :: m in r.matches && m.category == Gas ==> m.priority == 1
    ensures KeysOf(r.matches, MatchId) == KeysOf(Reconcile(HandleBoundary(ms, p), p).matches, MatchId)
  {
    var log := Reconcile(HandleBoundary(ms, p), p).conflicts;
    assert BoundaryFires(p) ==> log == [] by {
      if BoundaryFires(p) {
        BoundaryThenReconcileIsQuiet(ms, p);
      }
    }
    var refined := Refine(ms, p);
    var final := ValidateRequirementSet(Prioritize(refined), p);
    assert forall m :: m in final ==> m in refined;
    Processed(RuleSession(s.conflicts + log), final)
  }

  /** The log after a call is the earlier log followed by this call's conflicts. */
  lemma ProcessLog(s: RuleSession, ms: seq<RequirementMatch>, p: BusinessProfile)
    ensures Process(s, ms, p).session.conflicts == s.conflicts + Reconcile(HandleBoundary(ms, p), p).conflicts
  {
  }

  /** `get_conflict_report`: the log so far. */
  function ConflictReport(s: RuleSession): seq<RuleConflict> {
    s.conflicts
  }

  /** `reset_conflicts`: empties the log. */
  function Reset(s: RuleSession): (r: RuleSession)
    ensures ConflictReport(r) == []
  {
    RuleSession([])
  }

  /** A reset before each request makes the report hold exactly that request's
      conflicts, whatever earlier requests logged. */
  lemma ResetIsolatesRequests(s: RuleSession, t: RuleSession, ms: seq<RequirementMatch>, p: BusinessProfile)
    ensures ConflictReport(Process(Reset(s), ms, p).session) == Reconcile(HandleBoundary(ms, p), p).conflicts
    ensures Process(Reset(s), ms, p) == Process(Reset(t), ms, p)
  {
  }
}

=== FILE: seqs.dfy ===
/** Sequence helpers shared by every stage: filtering, mapping, first-occurrence
    deduplication and insertion-ordered counting (the behaviour of a Python
    `dict` used as a counter). */
module Seqs {

  import opened Wrappers

  /** The elements of `xs` that satisfy `p`, in their original order
      (a Python list comprehension with an `if`). */
  function Filter<T>(xs: seq<T>, p: T -> bool): (r: seq<T>)
    ensures |r| <= |xs|
  {
    if |xs| == 0 then []
    else (if p(xs[0]) then [xs[0]] else []) + Filter(xs[1..], p)
  }

  /** The filtered elements are exactly the elements that pass, each taken at
      most as often as it occurs. */
  lemma {:induction false} FilterMembers<T>(xs: seq<T>, p: T -> bool)
    ensures forall x :: x in Filter(xs, p) <==> x in xs && p(x)
    ensures multiset(Filter(xs, p)) <= multiset(xs)
  {
    if |xs| > 0 {
      FilterMembers(xs[1..], p);
      assert xs == [xs[0]] + xs[1..];
    }
  }

  /** One unfolding step of `Filter`. */
  lemma FilterCons<T>(x: T, xs: seq<T>, p: T -> bool)
    ensures Filter([x] + xs, p) == (if p(x) then [x] else []) + Filter(xs, p)
  {
    assert ([x] + xs)[1..] == xs;
  }

  /** Filtering a one-element sequence. */
  lemma FilterSingleton<T>(x: T, p: T -> bool)
    ensures Filter([x], p) == if p(x) then [x] else []
  {
    assert [x][1..] == [];
  }

  lemma {:induction false} FilterConcat<T>(a: seq<T>, b: seq<T>, p: T -> bool)
    ensures Filter(a + b, p) == Filter(a, p) + Filter(b, p)
  {
    if |a| == 0 {
      assert a + b == b;
    } else {
      var head := if p(a[0]) then [a[0]] else [];
      assert (a + b)[0] == a[0];
      assert (a + b)[1..] == a[1..] + b;
      assert Filter(a + b, p) == head + Filter(a[1..] + b, p);
      FilterConcat(a[1..], b, p);
      assert head + (Filter(a[1..], p) + Filter(b, p)) == (head + Filter(a[1..], p)) + Filter(b, p);
    }
  }

  /** Filtering keeps everything exactly when every element passes. */
  lemma {:induction false} FilterAll<T>(xs: seq<T>, p: T -> bool)
    requires forall x :: x in xs ==> p(x)
    ensures Filter(xs, p) == xs
  {
    if |xs| > 0 {
      FilterAll(xs[1..], p);
    }
  }

  /** Filtering keeps nothing when no element passes. */
  lemma {:induction false} FilterNone<T>(xs: seq<T>, p: T -> bool)
    requires forall x :: x in xs ==> !p(x)
    ensures Filter(xs, p) == []
  {
    if |xs| > 0 {
      FilterNone(xs[1..], p);
    }
  }

  /** `f` applied to every element, in order. */
  function Map<T, U>(xs: seq<T>, f: T -> U): (r: seq<U>)
    ensures |r| == |xs|
    ensures forall i :: 0 <= i < |xs| ==> r[i] == f(xs[i])
  {
    seq(|xs|, i requires 0 <= i < |xs| => f(xs[i]))
  }

  /** Swapping two blocks keeps the same elements. */
  lemma SwapBlocks<T>(a: seq<T>, b: seq<T>)
    ensures multiset(a + b) == multiset(b + a)
  {
  }

  /** The elements of a mapped sequence are exactly the images of its elements. */
  lemma MapMembers<T, U>(xs: seq<T>, f: T -> U)
    ensures forall y :: y in Map(xs, f) <==> exists x :: x in xs && y == f(x)
  {
    forall y | y in Map(xs, f)
      ensures exists x :: x in xs && y == f(x)
    {
      var i :| 0 <= i < |xs| && Map(xs, f)[i] == y;
      assert xs[i] in xs;
    }
    forall y | exists x :: x in xs && y == f(x)
      ensures y in Map(xs, f)
    {
      var x :| x in xs && y == f(x);
      var i :| 0 <= i < |xs| && xs[i] == x;
      assert Map(xs, f)[i] == y;
    }
  }

  /** No two elements of `xs` share a key. */
  ghost predicate DistinctKeys<T, K>(xs: seq<T>, key: T -> K) {
    forall i, j :: 0 <= i < j < |xs| ==> key(xs[i]) != key(xs[j])
  }

  /** Putting an element with a fresh key in front keeps the keys distinct. */
  lemma DistinctKeysCons<T, K>(y: T, ys: seq<T>, key: T -> K)
    requires DistinctKeys(ys, key)
    requires forall z :: z in ys ==> key(z) != key(y)
    ensures DistinctKeys([y] + ys, key)
  {
    forall i, j | 0 <= i < j < |[y] + ys|
      ensures key(([y] + ys)[i]) != key(([y] + ys)[j])
    {
      assert ([y] + ys)[j] == ys[j - 1];
      if i == 0 {
        assert ys[j - 1] in ys;
      } else {
        assert ([y] + ys)[i] == ys[i - 1];
      }
    }
  }

  /** No two elements of `xs` are equal. */
  ghost predicate Distinct<T>(xs: seq<T>) {
    forall i, j :: 0 <= i < j < |xs| ==> xs[i] != xs[j]
  }

  /** A sequence is repetition-free exactly when its head does not recur and
      its tail is repetition-free. */
  lemma DistinctConsIff<T>(xs: seq<T>)
    requires |xs| > 0
    ensures Distinct(xs) <==> xs[0] !in xs[1..] && Distinct(xs[1..])
  {
    if Distinct(xs) {
      forall i, j | 0 <= i < j < |xs[1..]|
        ensures xs[1..][i] != xs[1..][j]
      {
        assert xs[1..][i] == xs[i + 1] && xs[1..][j] == xs[j + 1];
      }
    } else {
      var i, j :| 0 <= i < j < |xs| && xs[i] == xs[j];
      assert xs[j] == xs[1..][j - 1];
      if i > 0 {
        assert xs[i] == xs[1..][i - 1];
      }
    }
  }

  /** The set of keys occurring in `xs`. */
  ghost function KeysOf<T, K>(xs: seq<T>, key: T -> K): set<K> {
    set x | x in xs :: key(x)
  }

  /** The earliest element of `xs` whose key is `k`: the independent reference
      for "first occurrence wins". */
  function FirstWithKey<T, K(==)>(xs: seq<T>, key: T -> K, k: K): (r: Option<T>)
    ensures r.Some? <==> exists x :: x in xs && key(x) == k
    ensures r.Some? ==> r.value in xs && key(r.value) == k
  {
    if |xs| == 0 then None
    else if key(xs[0]) == k then Some(xs[0])
    else FirstWithKey(xs[1..], key, k)
  }

  /** The first-occurrence deduplication loop of the source, with the set of
      keys already seen as an explicit argument. */
  function DedupFrom<T, K(==)>(xs: seq<T>, key: T -> K, seen: set<K>): (r: seq<T>)
    ensures |r| <= |xs|
    ensures forall x :: x in r ==> x in xs && key(x) !in seen
    ensures DistinctKeys(r, key)
    ensures forall x :: x in r ==> FirstWithKey(xs, key, key(x)) == Some(x)
    ensures forall x :: x in xs && key(x) !in seen ==> key(x) in KeysOf(r, key)
  {
    if |xs| == 0 then []
    else if key(xs[0]) in seen then DedupFrom(xs[1..], key, seen)
    else
      var rest := DedupFrom(xs[1..], key, seen + {key(xs[0])});
      assert key(xs[0]) in KeysOf([xs[0]] + rest, key);
      assert forall x :: x in rest ==> key(x) in KeysOf([xs[0]] + rest, key);
      [xs[0]] + rest
  }

  /** Keeps the first element of every key, dropping later repeats. */
  function DedupBy<T, K(==)>(xs: seq<T>, key: T -> K): (r: seq<T>)
    ensures |r| <= |xs|
    ensures forall x :: x in r ==> x in xs
    ensures DistinctKeys(r, key)
    ensures forall x :: x in r ==> FirstWithKey(xs, key, key(x)) == Some(x)
    ensures KeysOf(r, key) == KeysOf(xs, key)
  {
    DedupFrom(xs, key, {})
  }

  /** One counter entry: a key and how often it was seen. */
  datatype Entry<K> = Entry(key: K, count: nat)

  /** The counter value of `k`, 0 when absent (`counts.get(k, 0)`). */
  function Lookup<K(==)>(entries: seq<Entry<K>>, k: K): nat {
    if |entries| == 0 then 0
    else if entries[0].key == k then entries[0].count
    else Lookup(entries[1..], k)
  }

  /** `counts[k] = counts.get(k, 0) + 1`: bumps an existing entry in place or
      appends a new one at the end (dict insertion order). */
  function Bump<K(==)>(entries: seq<Entry<K>>, k: K): (r: seq<Entry<K>>)
    ensures |r| == |entries| || |r| == |entries| + 1
  {
    if |entries| == 0 then [Entry(k, 1)]
    else if entries[0].key == k then [Entry(k, entries[0].count + 1)] + entries[1..]
    else [entries[0]] + Bump(entries[1..], k)
  }

  /** Counting loop over `keys`, left to right. */
  function Tally<K(==)>(keys: seq<K>): seq<Entry<K>> {
    if |keys| == 0 then []
    else Bump(Tally(keys[..|keys| - 1]), keys[|keys| - 1])
  }

  /** Sum of all counters. */
  function Total<K>(entries: seq<Entry<K>>): nat {
    if |entries| == 0 then 0 else entries[0].count + Total(entries[1..])
  }

  /** The keys of an entry list. */
  function EntryKeys<K>(entries: seq<Entry<K>>): (r: seq<K>)
    ensures |r| == |entries|
    ensures forall i :: 0 <= i < |r| ==> r[i] == entries[i].key
  {
    if |entries| == 0 then [] else [entries[0].key] + EntryKeys(entries[1..])
  }

  lemma {:induction false} BumpTotal<K>(entries: seq<Entry<K>>, k: K)
    ensures Total(Bump(entries, k)) == Total(entries) + 1
  {
    if |entries| > 0 && entries[0].key != k {
      BumpTotal(entries[1..], k);
    }
  }

  lemma {:induction false} BumpLookup<K>(entries: seq<Entry<K>>, k: K, j: K)
    ensures Lookup(Bump(entries, k), j) == Lookup(entries, j) + (if j == k then 1 else 0)
  {
    if |entries| > 0 && entries[0].key != k {
      BumpLookup(entries[1..], k, j);
    }
  }

  lemma {:induction false} BumpKeys<K>(entries: seq<Entry<K>>, k: K)
    ensures forall j :: j in EntryKeys(Bump(entries, k)) <==> j in EntryKeys(entries) || j == k
  {
    if |entries| > 0 && entries[0].key != k {
      BumpKeys(entries[1..], k);
    }
  }

  lemma {:induction false} BumpDistinct<K>(entries: seq<Entry<K>>, k: K)
    requires Distinct(EntryKeys(entries))
    ensures Distinct(EntryKeys(Bump(entries, k)))
  {
    if |entries| > 0 && entries[0].key != k {
      var ks := EntryKeys(entries);
      assert ks[1..] == EntryKeys(entries[1..]);
      BumpDistinct(entries[1..], k);
      BumpKeys(entries[1..], k);
      assert entries[0].key !in ks[1..];
    }
  }

  lemma {:induction false} BumpPositive<K>(entries: seq<Entry<K>>, k: K)
    requires forall e :: e in entries ==> e.count > 0
    ensures forall e :: e in Bump(entries, k) ==> e.count > 0
  {
    if |entries| > 0 && entries[0].key != k {
      BumpPositive(entries[1..], k);
    }
  }

  /** The counter built from `keys` holds, for every key, exactly its number of
      occurrences; its keys are distinct and are exactly the keys seen; the
      counts add up to the number of keys. */
  lemma {:induction false} TallyCounts<K>(keys: seq<K>)
    ensures Total(Tally(keys)) == |keys|
    ensures forall k :: Lookup(Tally(keys), k) == multiset(keys)[k]
    ensures Distinct(EntryKeys(Tally(keys)))
    ensures forall k :: k in EntryKeys(Tally(keys)) <==> k in keys
    ensures forall e :: e in Tally(keys) ==> e.count > 0
  {
    if |keys| > 0 {
      var init := keys[..|keys| - 1];
      var last := keys[|keys| - 1];
      TallyCounts(init);
      BumpTotal(Tally(init), last);
      BumpKeys(Tally(init), last);
      BumpDistinct(Tally(init), last);
      BumpPositive(Tally(init), last);
      assert keys == init + [last];
      assert multiset(keys) == multiset(init) + multiset{last};
      forall k ensures Lookup(Tally(keys), k) == multiset(keys)[k] {
        BumpLookup(Tally(init), last, k);
      }
      forall k ensures k in EntryKeys(Tally(keys)) <==> k in keys {
        assert k in keys <==> k in init || k == last;
      }
    }
  }

  /** Index of the entry with the largest count; on a tie the earliest entry
      wins, as Python's `max` keeps the first maximal element it meets. */
  function MaxIndex<K>(entries: seq<Entry<K>>): (i: nat)
    requires |entries| > 0
    ensures i < |entries|
    ensures forall j :: 0 <= j < |entries| ==> entries[j].count <= entries[i].count
    ensures forall j :: 0 <= j < i ==> entries[j].count < entries[i].count
  {
    if |entries| == 1 then 0
    else
      var m := MaxIndex(entries[..|entries| - 1]);
      if entries[|entries| - 1].count > entries[m].count then |entries| - 1 else m
  }
}

=== FILE: wrappers.dfy ===
/** Failure-compatible wrappers used for the source's optional values and
    error returns. */
module Wrappers {

  /** A value that may be absent: a missing dictionary key, a `None`. */
  datatype Option<T> = None | Some(value: T) {

    /** The wrapped value, or `default` when absent (Python's `dict.get(k, default)`). */
    function GetOr(default: T): T {
      match this
      case Some(v) => v
      case None => default
    }

    /** The zero- or one-element sequence holding the wrapped value. */
    function ToSeq(): (r: seq<T>)
      ensures |r| <= 1
      ensures Some? <==> |r| == 1
      ensures Some? ==> r[0] == value
    {
      match this
      case Some(v) => [v]
      case None => []
    }
  }

  /** Either a value or an error: the model of an operation that may raise. */
  datatype Result<T, E> = Success(value: T) | Failure(error: E)
}
